=== FILE: README.md ===
# A verified model of a 6502/6507 interpreter core

This project models the CPU interpreter of a MOS 6502 / 6507 emulator written
in Go, and proves properties of the model in Dafny. The emulator runs one
instruction over several calls of `CPU_Interpreter`, one call per clock tick.

The model has one immutable processor state, `Cpu.State`. It holds:

- PC (16 bits), SP, A, X and Y (8 bits each);
- the eight status bits `P[0..7]`;
- the flat 64 KiB memory;
- the per-instruction tick counter `opc_cycle_count` and the page/branch
  penalty `opc_cycle_extra`;
- the latched effective address `addressBUS`;
- the operating mode: 6507 when `CPU_MODE == 0`, otherwise 6502.

Four pieces act on that state:

1. **Start-up** (`Lifecycle`): `Initialize` and `Reset`.
2. **The busy-then-retire tick protocol** (`Executor`). Every handler repeats
   it: while the counter is below its bound, a call only increments the
   counter. At the bound, the handler applies its whole effect at once,
   advances PC and resets the counters. `Executor.RetiresAtBound` proves that
   iterating the tick from the first one, for exactly the bound, applies the
   handler's retirement function once and leaves the counter at 1.
3. **Per-instruction retirement**, one module per handler file:
   - `Subtract` (SBC, binary and decimal);
   - `Compare` (CMP), `OrMemory` (ORA), `BitTest` (BIT);
   - `RotateLeft` (ROL) and `Decrement` (DEC);
   - `Push` (PHA) and `ReturnFromInterrupt` (RTI);
   - `Transfer` (TYA), `FlagOps` (SEI, CLV, SED, CLC);
   - `Branch` (BEQ, BVS).

   Each handler is modelled as its own file writes it. The three generations
   of handlers differ in what they reset when they retire:
   - The `VGS/` BIT, ROL, RTI, TYA, SEI, CLV, SED and CLC reset only the tick
     counter.
   - The `VGS/` CMP and ORA reset both counters.
   - The others call `resetIntOpcCycleCounters`, which also resets both.
4. **The dispatcher** (`Dispatch`). It holds the 151-row opcode table, split
   by the high nibble of the opcode. The table's regularities are captured in
   the predicate `WellFormed`:
   - lengths match the addressing mode;
   - only indexed reads pay a page crossing;
   - branches pay a taken-branch penalty on their own condition;
   - read-modify-write abs,X costs 7;
   - every row costs 2 to 7 cycles.

   The dispatcher also covers the first-tick block that latches the address
   and decides the penalty, the fatal default case, and the `P[5]`
   self-check. `Dispatch.InterpreterRetiresAtBound` lifts the tick protocol to
   whole calls of the interpreter.

`Assumed` declares, once, the helper routines whose bodies are not part of
this model: `DecodeTwoComplement`, `flags_V`, `flags_C_ADC_SBC`,
`flags_C_Subtraction` and `MemPageBoundary`. Each gets its standard
definition there, and these definitions are assumptions. Every handler uses
the same one. Three more helpers are not part of this model either, and
their standard meanings are assumed the same way:
- `flags_Z` and `flags_N` are taken as Z := (v == 0) and N := bit 7 of v
  (`Cpu.SetZN`).
- `resetIntOpcCycleCounters` is taken as count := 1, extra := 0
  (`Cpu.ResetCounters`).

Where the code and its own comments disagree, the model follows the code:

- **BIT** (`VGS/CPU_6507_BIT_R.go`) sets N and V from bits 7 and 6 of the
  *accumulator*, then loads the operand into A, and leaves Z alone. The
  file's own header comment describes the usual M7 -> N, M6 -> V, Z from
  A AND M. `BitTest.NegativeNotFromOperand` exhibits the difference.
- **RTI** reads the status byte at the stack slot of SP+1. It then reads PC
  from the two following addresses without wrapping inside the stack page,
  and does not advance PC. `ReturnFromInterrupt.ReadsPastStackPage` shows the
  read leaving page 1.
- **SBC in decimal mode** does not apply a nibble-wise BCD correction. It
  prints each byte in hex and re-reads the text as a decimal number. A byte
  with a nibble A-F fails to parse and reads as 0, because the error is
  discarded. `Bcd.ParsedDigits` models this exactly, so the decimal path is
  modelled for every byte, valid BCD or not. V is computed from the raw
  operand in decimal mode and from its one's complement in binary mode.

## Model

| member | source | states |
|---|---|---|
| `Lifecycle.Initialize` | CORE/CPU.go:10-39 | memory, PC, A, X, Y and all status bits are zero except P[5] = 1, and P[4] = 1 exactly in 6507 mode; the counter is 1; SP and the mode are untouched |
| `Lifecycle.Reset` | CORE/CPU.go:48-59 | with no override, PC's low byte is Memory[0xFFFC] and its high byte Memory[0xFFFD]; a nonzero override wins; SP = 0xFF; nothing else changes |
| `Lifecycle.ResetVectorExample` | CORE/CPU.go:47-58 | the vector bytes 0x00, 0x80 start execution at 0x8000 with SP = 0xFF |
| `Lifecycle.InitializeIdempotent` | CORE/CPU.go:10-39 | initializing twice gives the same state as initializing once |
| `Lifecycle.InitializeThenReset` | CORE/CPU.go:10-59 | after Initialize, Reset lands on the override (the zeroed vector gives 0), with SP = 0xFF, P[5] = 1 and the counter at 1 |
| `Cpu.StackAddress` | CORE/CPU_6502_PHA.go:28-38 | the stack slot of SP is on page 0 at SP itself on the 6507 and on page 1 at 0x100 + SP on the 6502; its low byte is always SP |
| `Cpu.SetZN` | CORE/CPU_6502_SBC.go:58-59 | Z is set iff the value is 0, N iff its bit 7 is set, and no other status bit changes |
| `Subtract.BinaryResult` | CORE/CPU_6502_SBC.go:41-50 | the ADC of the one's complement, A + (255 - M) + C mod 256, equals A - M - (1 - C) mod 256 |
| `Subtract.BinaryFlags` | CORE/CPU_6502_SBC.go:52-59 | C is set iff A - M - borrow >= 0; V iff the signed difference leaves -128..127; Z and N come from the result; I, D, B and U are kept |
| `Subtract.DecimalDifference` | CORE/CPU_6502_SBC.go:71-80 | the digit-string difference of A and M with borrow lies in -100..99 |
| `Subtract.DecimalResult` | CORE/CPU_6502_SBC.go:81-92 | the stored A is a valid BCD byte whose decimal value is the difference mod 100 |
| `Subtract.DecimalFlags` | CORE/CPU_6502_SBC.go:96-116 | C iff the unwrapped difference >= 0; N iff it is < 0, not from bit 7; Z from the result; V from the raw operand |
| `Subtract.Retire` | CORE/CPU_6502_SBC.go:34-131 | in binary mode, A' and all four flags follow two's-complement subtraction with borrow; in decimal mode, A' is BCD of the difference mod 100 with the decimal C, N, Z and V; PC advances by the length, memory and X, Y, SP are unchanged, and both counters reset |
| `Subtract.DecimalOnValidOperands` | CORE/CPU_6502_SBC.go:72-104 | on valid BCD operands A' is the BCD encoding of dec(A) - dec(M) - borrow, plus 100 when negative, and C is set iff that difference is >= 0 |
| `Bcd.Encode` | CORE/CPU_6502_SBC.go:88-92 | re-reading the decimal digits of 0..99 in hex gives a valid BCD byte with that value, and 0 only for 0 |
| `Bcd.EncodeValue` | CORE/CPU_6502_SBC.go:88-92 | encoding is the inverse of decoding: every valid BCD byte is the encoding of its value |
| `Bcd.ParsedDigits` | CORE/CPU_6502_SBC.go:71-75 | the hex printout of a byte read back as decimal is at most 99 |
| `Assumed.TwosComplement` | CPU_6502_BEQ_R.go:22-23 | the signed reading of a byte lies in -128..127, wraps back to the byte, and is negative iff bit 7 is set |
| `Assumed.OverflowIsSignedRangeExit` | CORE/CPU_6502_SBC.go:52-53 | the sign-bit overflow rule is set exactly when the signed sum leaves -128..127 |
| `Compare.CompareFlags` | VGS/CPU_6507_CMP_R.go:39-58 | Z iff A = M; N is bit 7 of (A - M) mod 256; C iff A >= M; every other bit is kept |
| `Compare.Retire` | VGS/CPU_6507_CMP_R.go:32-68 | CMP sets Z, N and C as above, leaves I, D, V, B, U, A and memory unchanged, advances PC by the length and resets both counters |
| `Compare.CompareIsSubtractWithoutStore` | VGS/CPU_6507_CMP_R.go:39-58 | in binary mode with no borrow, CMP's Z, N and C are exactly SBC's, while A stays as it was |
| `BitTest.Retire` | VGS/CPU_6507_BIT_R.go:26-68 | N = bit 7 and V = bit 6 of the old A, then A = M; Z, C, I, D, B, U and memory are unchanged; PC advances; only the tick counter resets |
| `BitTest.NegativeNotFromOperand` | VGS/CPU_6507_BIT_R.go:43-47 | when A and M differ in bit 7, N differs from bit 7 of M, unlike the header's M7 -> N |
| `BitTest.SecondTestSeesOperand` | VGS/CPU_6507_BIT_R.go:47-61 | because A is overwritten, a second BIT reports bits 7 and 6 of the operand |
| `OrMemory.Retire` | VGS/CPU_6507_ORA.go:37-57 | every bit of A' is the OR of the bits of A and M; Z iff both are 0; N iff either has bit 7; other flags and memory unchanged; PC advances and both counters reset |
| `OrMemory.Idempotent` | VGS/CPU_6507_ORA.go:44 | a second ORA with the same operand leaves A as the first one left it |
| `Bytes.OrByte` | VGS/CPU_6507_ORA.go:44 | Go's byte `|`: bitwise OR, zero iff both are zero, bit 7 set iff set in either |
| `RotateLeft.ShiftIn` | VGS/CPU_6507_ROL.go:42-43 | the shifted byte plus 256 times the old bit 7 is 2M + C, and its bit 0 is the old carry |
| `RotateLeft.Retire` | VGS/CPU_6507_ROL.go:29-56 | C' = bit 7 of M; 256·C' + M' = 2M + C; Z and N from M'; only that cell, C, Z, N, PC and the tick counter change |
| `RotateLeft.StepRotates` | VGS/CPU_6507_ROL.go:39-43 | one ROL rotates the nine-bit value C:M left by one place |
| `RotateLeft.RepeatRotates` | VGS/CPU_6507_ROL.go:39-43 | n ROLs of the same cell rotate C:M n places |
| `RotateLeft.NineRotationsRestore` | VGS/CPU_6507_ROL.go:39-43 | nine successive ROLs restore both the cell and the carry |
| `Decrement.Retire` | CPU_6502_DEC_RW.go:30-49 | M' + 1 = M mod 256, so 0x00 becomes 0xFF; Z and N from M'; every other cell, A, X, Y, SP and C, I, D, V are unchanged; PC advances and both counters reset |
| `Decrement.RepeatSubtracts` | CPU_6502_DEC_RW.go:39 | after n DECs of one cell it holds M - n mod 256 |
| `Decrement.FullCircle` | CPU_6502_DEC_RW.go:39 | every multiple of 256 DECs brings the cell back to its value |
| `Push.Retire` | CORE/CPU_6502_PHA.go:26-52 | A is written at SP (6507) or 0x100 + SP (6502), no other cell changes, SP' + 1 = SP mod 256, flags and A, X, Y are unchanged, PC advances and both counters reset |
| `Push.PullSeesPushed` | CORE/CPU_6502_PHA.go:28-45 | the slot just written is the one a pull reads next, at SP' + 1 |
| `ReturnFromInterrupt.StatusAddress` | VGS/CPU_6502_RTI.go:39-49 | the status byte is read at (SP + 1) mod 256 in 6507 mode and at 0x100 + ((SP + 1) mod 256) in 6502 mode |
| `ReturnFromInterrupt.PullFlags` | VGS/CPU_6502_RTI.go:51-62 | bits 0-3, 6 and 7 take the stacked byte's bits; bits 4 and 5 keep their values |
| `ReturnFromInterrupt.Retire` | VGS/CPU_6502_RTI.go:35-81 | P is pulled as above; PC = 256·Memory[s+2] + Memory[s+1] with s the status address and no wrap inside the page; SP' = SP + 3 mod 256; A, X, Y and memory are unchanged; PC is not advanced by a length |
| `ReturnFromInterrupt.PushedFrameRoundTrip` | VGS/CPU_6502_RTI.go:42-71 | after pushing PC high, PC low and a status byte (when SP >= 2), RTI returns to that PC with those flags (bits 4 and 5 aside) and SP back where it started |
| `ReturnFromInterrupt.ReadsPastStackPage` | VGS/CPU_6502_RTI.go:69 | on the 6502 with SP = 0xFE, PC is read from 0x0200/0x0201, outside the stack page, and SP wraps to 0x01 |
| `Transfer.Retire` | VGS/CPU_6507_TYA.go:20-42 | A' = Y; Z iff Y = 0; N = bit 7 of Y; other flags, X, Y, SP and memory unchanged; PC advances; only the tick counter resets |
| `Transfer.Idempotent` | VGS/CPU_6507_TYA.go:27-35 | a second TYA changes nothing but PC |
| `FlagOps.Sei` | VGS/CPU_6502_SEI.go:26-40 | I = 1; all other flags, registers and memory unchanged; PC advances; only the tick counter resets |
| `FlagOps.Clv` | VGS/CPU_6502_CLV.go:26-40 | V = 0; all other flags, registers and memory unchanged; PC advances; only the tick counter resets |
| `FlagOps.Sed` | VGS/CPU_6502_SED.go:26-41 | D = 1; all other flags, registers and memory unchanged; PC advances; only the tick counter resets |
| `FlagOps.Clc` | VGS/CPU_6507_CLC.go:25-39 | C = 0; all other flags, registers and memory unchanged; PC advances; only the tick counter resets |
| `FlagOps.SeiIdempotent` | VGS/CPU_6502_SEI.go:28 | a second SEI changes nothing but PC |
| `FlagOps.ClvIdempotent` | VGS/CPU_6502_CLV.go:28 | a second CLV changes nothing but PC |
| `FlagOps.SedIdempotent` | VGS/CPU_6502_SED.go:28 | a second SED changes nothing but PC |
| `FlagOps.ClcIdempotent` | VGS/CPU_6507_CLC.go:27 | a second CLC changes nothing but PC |
| `Branch.Displace` | CPU_6502_BEQ_R.go:39-40 | adding the offset converted to uint16 is adding the signed offset mod 65536 |
| `Branch.Bound` | CPU_6502_BEQ_R.go:25-56 | a branch always spends its base cycles, at most the penalty and one more on top, and runs past its base cycles exactly when it is taken |
| `Branch.Beq` | CPU_6502_BEQ_R.go:14-71 | when Z = 1, PC' = PC + length + the signed reading of the operand mod 65536; when Z = 0, PC' = PC + length; nothing but PC and the counters changes |
| `Branch.Bvs` | CORE/CPU_6502_BVS.go:16-63 | when V = 1, PC' = PC + length + offset mod 65536; when V = 0, PC' = PC + length; no flag, other register or memory changes; both counters reset on either path |
| `Branch.TakenLandsAtOffset` | CPU_6502_BEQ_R.go:39-43 | the target of a taken branch, measured from the next instruction and read as a signed 16-bit distance, is the offset itself |
| `Executor.Bound` | CORE/CPU_6502_SBC.go:29-31 | every handler spends at least its base cycles and at most the pending penalty plus one on top; only BEQ and BVS can go beyond cycles + penalty |
| `Executor.Prepare` | VGS/CPU_6507_ORA.go:17-25 | a handler's entry work changes nothing but the penalty |
| `Executor.Retire` | CORE/CPU_6502_SBC.go:127-130 | every handler's last tick leaves the counter at 1, never raises the penalty, and keeps the mode and P[4], P[5] |
| `Executor.Tick` | CORE/CPU_6502_SBC.go:29-34 | below the bound a call changes only the counter (after ORA's entry check); at the bound it retires; the mode and P[4], P[5] survive every tick, and a penalty of at most 1 stays at most 1 |
| `Executor.Run` | CORE/CPU_6502_SBC.go:29-34 | any number of ticks of one handler keep the mode and P[4], P[5], and after one or more ticks the counter is at least 1 |
| `Executor.PrepareOnlyOnFirstTick` | VGS/CPU_6507_ORA.go:17-25 | on later ticks the entry check changes nothing |
| `Executor.BusyTicks` | CORE/CPU_6502_SBC.go:29-31 | k busy ticks from the first leave the first-tick state with only the counter moved to 1 + k |
| `Executor.RetiresAtBound` | CORE/CPU_6502_SBC.go:29-131 | exactly bound-many ticks from the first one apply the retirement function once, with the counter back at 1 |
| `Dispatch.Decode` | CORE/CPU.go:80-1133 | every opcode in the table has a well-formed row (length from the mode, penalty only on indexed reads and branches, RMW abs,X at 7, 2 to 7 cycles); the others map to the default case |
| `Dispatch.StoreRows` | CORE/CPU.go:725-747 | STA abs,X and abs,Y cost a fixed 5, STA (ind),Y a fixed 6, and no STA row is charged a page crossing |
| `Dispatch.ReadModifyWriteAbsoluteXRows` | CORE/CPU.go:817-873 | ASL, DEC and INC abs,X cost a fixed 7 with no penalty |
| `Dispatch.FirstTick` | CORE/CPU.go:175-183 | only when the counter is 1: the address is the row's addressing helper applied to the current state; an indexed read's penalty is 1 iff the address and PC are on different pages; a branch's penalty is set only when its flag holds, from the page of PC against PC + offset + 2; on later ticks nothing changes |
| `Dispatch.OraEntryCheckAgrees` | VGS/CPU_6507_ORA.go:17-25 | for opcode 0x11 the row is ORA (ind),Y with a page-crossing penalty, and ORA's own entry check agrees with the penalty the first-tick block already charged, leaving the state unchanged |
| `Dispatch.BoundAtMostNine` | CORE/CPU.go:80-1133 | starting with at most one pending penalty cycle, no modelled instruction stays busy for more than its row's cycles + 2, nor for more than 9 ticks |
| `Dispatch.HandlerFor` | CORE/CPU.go:80-1133 | a row calls a handler exactly when its mnemonic is one of the 15 modelled and it is not ROL on the accumulator; the handler implements the row's mnemonic with the row's cycles and length; address handlers get the latched address and BVS the signed reading of the byte there |
| `Dispatch.Interpret` | CORE/CPU.go:67-1145 | an opcode without a row is fatal exactly when the table has none for it; a call that keeps running leaves P[5] = 1; the mode and P[5] are kept; a penalty of at most 1 stays at most 1 |
| `Dispatch.SelfCheckFiresOnlyIfAlreadyClear` | CORE/CPU.go:1141-1145 | for a modelled handler the self-check fails exactly when P[5] was already clear |
| `Dispatch.OneModelledTick` | CORE/CPU.go:67-1145 | on a modelled row with P[5] set, one call of the interpreter is one tick of the row's handler after the row's first-tick block, and the machine keeps running |
| `Dispatch.Steps` | CORE/CPU.go:1130-1145 | after n calls a machine still running has its original mode, P[5] set when n >= 1, and, if it started with a penalty of at most 1, still at most 1 |
| `Dispatch.StaysStopped` | CORE/CPU.go:1130-1145 | once a call has stopped the machine (fatal or unmodelled), every later number of calls gives the same outcome |
| `Dispatch.StepsFollowHandler` | CORE/CPU.go:67-80 | from the first tick of a modelled instruction, k calls of the interpreter are k ticks of that one handler |
| `Dispatch.InterpreterRetiresAtBound` | CORE/CPU.go:67-1145 | bound-many interpreter calls from the first tick leave the machine running in the handler's retired state with the counter at 1 |

## Left out

- `6502.go`, which does ROM loading, command-line flags and the window: I/O
  and a foreign UI library.
- `InitializeTimers` (CORE/CPU.go:41-45): Go tickers, which are clock and
  concurrency plumbing.
- `ShowDebugHeader`, the `*_DebugMsg` functions and every `if Debug` block:
  trace output only.
- The test hooks at CORE/CPU.go:1147-1177, which are prints and an exit at
  one PC of one test ROM, and the `cycle`/`CPS` counters at
  CORE/CPU.go:1136-1137: instrumentation, not CPU semantics.
- `Initialize` also sets `opcode = 0` and `CPU_Enabled = true`. Neither is
  part of the state: the model reads the opcode as `Memory[PC]`, which is
  also what ORA's `opcode == 0x11` test sees.
- The bodies of the `addr_mode_*` helpers are not part of this model. The
  first tick takes a `resolve(state, mode)` parameter instead, a function
  of the whole current state. An address that depends on memory or X/Y
  that an earlier instruction changed is therefore read afresh, as in Go.
- The branch offset `memValue` that the first tick compares pages with is
  not part of this model. It is taken as the two's-complement reading of
  the byte at the latched address.
- `CORE/CPU.go:1061` passes `addressBUS` to `opc_BVS`, whose parameter is a
  signed `value`. The model hands BVS the two's-complement reading of the
  byte at that address, as BEQ does.
- The handlers of the other 41 mnemonics, and ROL on the accumulator
  (`opc_ROL_A`), are not part of this model. For these rows the interpreter
  returns `Unmodelled`, holding the state after the row's first-tick block.
- The root package's handlers (`CPU_6502_DEC_RW.go`, `CPU_6502_BEQ_R.go`)
  use their own counter globals `Opc_cycle_count`/`Opc_cycle_extra` and
  the `dataBUS_*` accessors. The model maps these onto the one shared
  state, reading and writing memory directly.
- Counters are unbounded naturals. Every row of the table costs 2 to 7
  cycles (`Dispatch.WellFormed`). `Dispatch.BoundAtMostNine` proves that an
  instruction starting with at most one pending penalty cycle stays busy for
  at most 9 ticks. `Dispatch.Steps` proves that such a penalty stays at most
  1 over any run. The declaration of the Go global `opc_cycle_extra` is not
  part of this model; the model assumes it starts at 0, as a Go package
  variable without an initialiser does. Under that assumption the Go `byte`
  counters never wrap on a run from the program's start.
- `os.Exit` ends the process. `Dispatch.Steps` models it by stopping at the
  first outcome that is not `Running`.
- Dispatch.Decode: its contract states the regularities every row keeps and
  the spot checks in `StoreRows` and `ReadModifyWriteAbsoluteXRows`, not
  each of the 151 rows one by one. The rows themselves are the function's
  body.
- Executor.Retire: its contract states only what every handler shares
  (counter 1, mode, P[4] and P[5] kept). Each handler's own contract is
  stated on that handler's module function.
- Branch.Bound: its contract gives the range of the bound and says the
  extra cycle is paid exactly when the branch is taken, not the exact
  count. The exact timing is stated by `Executor.BusyTicks` and
  `Executor.RetiresAtBound`, which run the ticks up to the bound.
- Executor.Bound: its contract gives the range of each handler's bound, not
  the exact count per handler, for the same reason.

=== FILE: assumed.dfy ===
/** The helper routines the handlers call whose bodies are not part of this
    model: `DecodeTwoComplement`, `flags_V`, `flags_C_ADC_SBC`,
    `flags_C_Subtraction` and `MemPageBoundary`. Each is given its standard
    definition here. These definitions are ASSUMPTIONS about the unseen
    code, not verified code; every handler that uses one uses this single
    definition. Three more are assumed the same way elsewhere: `flags_Z`
    and `flags_N` are `Cpu.SetZN`, and `resetIntOpcCycleCounters` is
    `Cpu.ResetCounters`. */
module Assumed {
  import opened Bytes

  /** `DecodeTwoComplement`: the signed reading of a byte. */
  function TwosComplement(b: byte): (r: int)
    ensures -128 <= r <= 127
    ensures Wrap8(r) == b
    ensures r < 0 <==> Bit7(b) == 1
  {
    if b < 0x80 then b else b - 0x100
  }

  /** `flags_V(a, b, carry)`: signed overflow of `a + b + carry`, read off
      the sign bits: both operands have the same sign and the 8-bit sum has
      the other one. */
  function OverflowFlag(a: byte, b: byte, carry: bit): bit {
    var sum := Wrap8(a + b + carry);
    if Bit7(a) == Bit7(b) && Bit7(sum) != Bit7(a) then 1 else 0
  }

  /** `flags_C_ADC_SBC(a, b, carry)`: carry out of the 8-bit addition. */
  function CarryFlag(a: byte, b: byte, carry: bit): bit {
    if a + b + carry > 0xFF then 1 else 0
  }

  /** `flags_C_Subtraction(a, m)`: carry set when no borrow is needed. */
  function CompareCarry(a: byte, m: byte): bit {
    if a >= m then 1 else 0
  }

  /** `MemPageBoundary(a, b)`: the two addresses lie on different
      256-byte pages. */
  predicate PageCrossed(a: word, b: word) {
    a / 0x100 != b / 0x100
  }

  /** The sign-bit formula of `flags_V` is exactly "the signed sum leaves
      the range -128..127". */
  lemma {:induction false} OverflowIsSignedRangeExit(a: byte, b: byte, carry: bit)
    ensures OverflowFlag(a, b, carry) == 1
        <==> !(-128 <= TwosComplement(a) + TwosComplement(b) + carry <= 127)
  {
    var s := a + b + carry;
    if a < 0x80 && b < 0x80 {
      assert s < 0x100;
      assert Wrap8(s) == s;
    } else if a >= 0x80 && b >= 0x80 {
      assert 0x100 <= s < 0x200;
      assert Wrap8(s) == s - 0x100;
    } else {
      assert Bit7(a) != Bit7(b);
    }
  }
}

=== FILE: bcd.dfy ===
/** Packed binary-coded decimal: two decimal digits per byte, the tens in
    the high nibble. */
module Bcd {
  import opened Bytes

  predicate IsBcd(b: byte) {
    b / 0x10 <= 9 && b % 0x10 <= 9
  }

  /** The decimal number a valid BCD byte stands for. */
  function Value(b: byte): (n: nat)
    requires IsBcd(b)
    ensures n <= 99
  {
    10 * (b / 0x10) + b % 0x10
  }

  /** The BCD byte of a number 0..99. This is also what
      `strconv.ParseInt(fmt.Sprintf("%d", n), 16, 32)` yields for such an
      `n`: its decimal digits re-read as hex digits. */
  function Encode(n: nat): (b: byte)
    requires n <= 99
    ensures IsBcd(b) && Value(b) == n
    ensures b == 0 <==> n == 0
  {
    0x10 * (n / 10) + n % 10
  }

  lemma EncodeValue(b: byte)
    requires IsBcd(b)
    ensures Encode(Value(b)) == b
  {
    var hi, lo := b / 0x10, b % 0x10;
    assert Value(b) == 10 * hi + lo;
    assert (10 * hi + lo) / 10 == hi && (10 * hi + lo) % 10 == lo;
  }

  /** What `strconv.ParseInt(fmt.Sprintf("%X", b), 0, 32)` yields with its
      error discarded: `%X` prints the two nibbles as hex digits, base 0
      reads them as a decimal literal, and a digit A..F is a syntax error,
      for which ParseInt returns 0. */
  function ParsedDigits(b: byte): (n: nat)
    ensures n <= 99
  {
    if IsBcd(b) then Value(b) else 0
  }
}

=== FILE: bit_test.dfy ===
/** BIT, test bits in memory with the accumulator, as coded in
    `VGS/CPU_6507_BIT_R.go`: N and V are taken from bits 7 and 6 of the
    accumulator (not of the operand), then the accumulator is overwritten
    with the operand. Z is never written. */
module BitTest {
  import opened Bytes
  import opened Cpu

  /** The retirement of BIT with operand `Memory[addr]`. Only the tick
      counter is reset; a pending penalty is left as it was. */
  function Retire(c: State, addr: word, len: word): (r: State)
    ensures r.p[Negative] == Bit7(c.a) && r.p[Overflow] == Bit6(c.a)
    ensures r.a == c.mem[addr]
    ensures forall i | 0 <= i < 8 && i != Negative && i != Overflow :: r.p[i] == c.p[i]
    ensures r == c.(a := r.a, p := r.p, pc := Advance(c.pc, len), count := 1)
  {
    c.(p := c.p[Negative := Bit7(c.a)][Overflow := Bit6(c.a)], a := c.mem[addr],
       pc := Advance(c.pc, len), count := 1)
  }

  /** Where the operand and the accumulator differ in bit 7, N does not
      receive bit 7 of the operand, contrary to the description `M7 -> N`
      in the file header. */
  lemma NegativeNotFromOperand(c: State, addr: word, len: word)
    requires Bit7(c.a) != Bit7(c.mem[addr])
    ensures Retire(c, addr, len).p[Negative] != Bit7(c.mem[addr])
  {
  }

  /** Since BIT loads the operand into A, a second BIT reports bits 7 and 6
      of the first operand. */
  lemma SecondTestSeesOperand(c: State, addr: word, len: word)
    ensures var r := Retire(Retire(c, addr, len), addr, len);
      && r.p[Negative] == Bit7(c.mem[addr])
      && r.p[Overflow] == Bit6(c.mem[addr])
      && r.a == c.mem[addr]
  {
  }
}

=== FILE: branch.dfy ===
/** The relative branches BEQ (`CPU_6502_BEQ_R.go`) and BVS
    (`CORE/CPU_6502_BVS.go`). A branch retires on one of two arms: taken,
    PC moves by the signed offset and the instruction length; not taken,
    PC moves by the length alone. Both arms reset both counters. */
module Branch {
  import opened Bytes
  import opened Assumed
  import opened Cpu

  /** A signed 8-bit displacement, Go's `int8`. */
  type Offset = x: int | -128 <= x < 128

  /** `PC += uint16(value)`: the signed offset converted to 16 bits and
      added with wrap-around. */
  function Displace(pc: word, offset: Offset): (r: word)
    ensures r == Wrap16(pc + offset)
  {
    var x := pc + offset;
    assert Wrap16(offset) == offset || Wrap16(offset) == offset + 0x1_0000;
    assert pc + Wrap16(offset) == x || pc + Wrap16(offset) == x + 0x1_0000;
    Wrap16(pc + Wrap16(offset))
  }

  /** The number of ticks before a branch retires: `cycles + 1 + extra`
      when taken, plain `cycles` when not. The base cycles are always
      spent, and a branch runs past them exactly when it is taken. */
  function Bound(taken: bool, cycles: nat, extra: nat): (n: nat)
    ensures cycles <= n <= cycles + 1 + extra
    ensures n > cycles <==> taken
  {
    if taken then cycles + 1 + extra else cycles
  }

  /** The retirement of a branch whose condition is `taken`. */
  function Retire(c: State, taken: bool, offset: Offset, len: word): (r: State)
    ensures taken ==> r.pc == Wrap16(c.pc + len + offset)
    ensures !taken ==> r.pc == Wrap16(c.pc + len)
    ensures r == c.(pc := r.pc, count := 1, extra := 0)
  {
    var pc := if taken then Displace(c.pc, offset) else c.pc;
    WrapSum(c.pc + offset, len);
    ResetCounters(c.(pc := Advance(pc, len)))
  }

  lemma WrapSum(x: int, len: word)
    ensures Wrap16(Wrap16(x) + len) == Wrap16(x + len)
  {
    var q := x / 0x1_0000;
    assert x == 0x1_0000 * q + Wrap16(x);
    assert x + len == 0x1_0000 * q + (Wrap16(x) + len);
  }

  /** BEQ: branch on Z = 1, with the offset the two's-complement reading
      of `Memory[addr]`. */
  function Beq(c: State, addr: word, len: word): (r: State)
    ensures c.p[Zero] == 1 ==> r.pc == Wrap16(c.pc + len + TwosComplement(c.mem[addr]))
    ensures c.p[Zero] == 0 ==> r.pc == Wrap16(c.pc + len)
    ensures r == c.(pc := r.pc, count := 1, extra := 0)
  {
    var offset := TwosComplement(c.mem[addr]);
    Retire(c, c.p[Zero] == 1, offset, len)
  }

  /** BVS: branch on V = 1 by the signed `value` it is handed. */
  function Bvs(c: State, offset: Offset, len: word): (r: State)
    ensures c.p[Overflow] == 1 ==> r.pc == Wrap16(c.pc + len + offset)
    ensures c.p[Overflow] == 0 ==> r.pc == Wrap16(c.pc + len)
    ensures r == c.(pc := r.pc, count := 1, extra := 0)
  {
    Retire(c, c.p[Overflow] == 1, offset, len)
  }

  /** A taken branch lands where its offset says: the distance from the
      instruction following the branch, read back as a signed 16-bit
      number, is the offset itself. */
  lemma TakenLandsAtOffset(c: State, offset: Offset, len: word)
    ensures var next := Advance(c.pc, len);
      var target := Retire(c, true, offset, len).pc;
      var distance := Wrap16(target - next);
      (if distance < 0x8000 then distance else distance - 0x1_0000) == offset
  {
    var next := Advance(c.pc, len);
    var target := Retire(c, true, offset, len).pc;
    assert target == Wrap16(c.pc + len + offset);
    Recover(c.pc + len, offset);
  }

  /** Wrapping a base and the base plus a displacement separately and
      subtracting gives back the displacement modulo 2^16. */
  lemma Recover(base: int, offset: Offset)
    ensures var distance := Wrap16(Wrap16(base + offset) - Wrap16(base));
      (if distance < 0x8000 then distance else distance - 0x1_0000) == offset
  {
    var b, t: int := Wrap16(base), Wrap16(base + offset);
    var q := base / 0x1_0000;
    assert base == 0x1_0000 * q + b;
    assert t - b == offset || t - b == offset + 0x1_0000 || t - b == offset - 0x1_0000;
  }
}

=== FILE: bytes.dfy ===
/** Fixed-width integers of the 6502 and the bit-level operations the
    instruction handlers perform on them. Go's `byte` and `uint16`
    arithmetic wraps; here the wrap is written out with `Wrap8`/`Wrap16`. */
module Bytes {

  type byte = x: int | 0 <= x < 0x100
  type word = x: int | 0 <= x < 0x1_0000
  type bit = x: int | 0 <= x < 2

  /** Go `byte` arithmetic: the value modulo 256. */
  function Wrap8(x: int): byte {
    x % 0x100
  }

  /** Go `uint16` arithmetic: the value modulo 65536. */
  function Wrap16(x: int): word {
    x % 0x1_0000
  }

  /** Bit 7 of a byte, as `v >> 7`. */
  function Bit7(v: byte): bit {
    v / 0x80
  }

  /** Bit 6 of a byte, as `v >> 6 & 1`. */
  function Bit6(v: byte): bit {
    (v / 0x40) % 2
  }

  /** Bit `i` of `v`, bit 0 the least significant: `(v >> i) & 1`. */
  function BitOf(v: nat, i: nat): bit
    decreases i
  {
    if i == 0 then v % 2 else BitOf(v / 2, i - 1)
  }

  function Pow2(n: nat): nat {
    if n == 0 then 1 else 2 * Pow2(n - 1)
  }

  lemma {:induction false} ZeroHasNoBits(i: nat)
    ensures BitOf(0, i) == 0
    decreases i
  {
    if i > 0 {
      ZeroHasNoBits(i - 1);
    }
  }

  /** The two readings of bit 7 agree. */
  lemma Bit7IsBitOf(v: byte)
    ensures BitOf(v, 7) == Bit7(v)
  {
    var v1 := v / 2;
    var v2 := v1 / 2;
    var v3 := v2 / 2;
    var v4 := v3 / 2;
    var v5 := v4 / 2;
    var v6 := v5 / 2;
    var v7 := v6 / 2;
    assert v7 == v / 0x80;
    assert BitOf(v, 7) == BitOf(v7, 0);
  }

  /** The two readings of bit 6 agree. */
  lemma Bit6IsBitOf(v: byte)
    ensures BitOf(v, 6) == Bit6(v)
  {
    var v1 := v / 2;
    var v2 := v1 / 2;
    var v3 := v2 / 2;
    var v4 := v3 / 2;
    var v5 := v4 / 2;
    var v6 := v5 / 2;
    assert v6 == v / 0x40;
    assert BitOf(v, 6) == BitOf(v6, 0);
  }

  /** Bitwise inclusive OR (Go's `|`) on naturals, one bit at a time from
      the least significant end. */
  function Or(a: nat, b: nat): nat
    decreases a + b
  {
    if a == 0 then b
    else if b == 0 then a
    else 2 * Or(a / 2, b / 2) + (if a % 2 == 1 || b % 2 == 1 then 1 else 0)
  }

  /** Bit `i` of `a | b` is set exactly when it is set in `a` or in `b`. */
  lemma {:induction false} OrBit(a: nat, b: nat, i: nat)
    ensures BitOf(Or(a, b), i) == 1 <==> BitOf(a, i) == 1 || BitOf(b, i) == 1
    decreases i
  {
    if a == 0 {
      ZeroHasNoBits(i);
    } else if b == 0 {
      ZeroHasNoBits(i);
    } else if i > 0 {
      var low := if a % 2 == 1 || b % 2 == 1 then 1 else 0;
      assert Or(a, b) == 2 * Or(a / 2, b / 2) + low;
      assert Or(a, b) / 2 == Or(a / 2, b / 2);
      OrBit(a / 2, b / 2, i - 1);
    }
  }

  /** OR of two `n`-bit values is an `n`-bit value. */
  lemma {:induction false} OrBound(a: nat, b: nat, n: nat)
    requires a < Pow2(n) && b < Pow2(n)
    ensures Or(a, b) < Pow2(n)
    decreases n
  {
    if n > 0 && a != 0 && b != 0 {
      OrBound(a / 2, b / 2, n - 1);
    }
  }

  lemma {:induction false} OrSelf(a: nat)
    ensures Or(a, a) == a
    decreases a
  {
    if a != 0 {
      OrSelf(a / 2);
    }
  }

  /** OR-ing the same operand a second time changes nothing. */
  lemma {:induction false} OrIdempotent(a: nat, b: nat)
    ensures Or(Or(a, b), b) == Or(a, b)
    decreases a + b
  {
    if a == 0 {
      OrSelf(b);
    } else if b != 0 {
      var low := if a % 2 == 1 || b % 2 == 1 then 1 else 0;
      assert Or(a, b) == 2 * Or(a / 2, b / 2) + low;
      assert Or(a, b) / 2 == Or(a / 2, b / 2);
      assert Or(a, b) % 2 == low;
      OrIdempotent(a / 2, b / 2);
    }
  }

  lemma {:induction false} OrZero(a: nat, b: nat)
    ensures Or(a, b) == 0 <==> a == 0 && b == 0
    decreases a + b
  {
    if a != 0 && b != 0 {
      OrZero(a / 2, b / 2);
    }
  }

  /** Every bit of `a | b` is the OR of the operands' bits. */
  lemma OrBits(a: nat, b: nat)
    ensures forall i: nat :: BitOf(Or(a, b), i) == 1 <==> BitOf(a, i) == 1 || BitOf(b, i) == 1
  {
    forall i: nat
      ensures BitOf(Or(a, b), i) == 1 <==> BitOf(a, i) == 1 || BitOf(b, i) == 1
    {
      OrBit(a, b, i);
    }
  }

  /** Go's `a | b` on two bytes. */
  function OrByte(a: byte, b: byte): (r: byte)
    ensures forall i: nat :: BitOf(r, i) == 1 <==> BitOf(a, i) == 1 || BitOf(b, i) == 1
    ensures r == 0 <==> a == 0 && b == 0
    ensures Bit7(r) == 1 <==> Bit7(a) == 1 || Bit7(b) == 1
  {
    OrBound(a, b, 8);
    assert Pow2(8) == 0x100;
    OrBits(a, b);
    OrZero(a, b);
    Bit7IsBitOf(a);
    Bit7IsBitOf(b);
    Bit7IsBitOf(Or(a, b));
    Or(a, b)
  }
}

=== FILE: compare.dfy ===
/** CMP, compare memory with the accumulator (`VGS/CPU_6507_CMP_R.go`):
    the flags of `A - M` without storing the difference. */
module Compare {
  import opened Bytes
  import opened Assumed
  import opened Cpu
  import Subtract

  /** The flags of a compare: Z and N from the 8-bit difference, C from
      `flags_C_Subtraction`. */
  function CompareFlags(p: Flags, a: byte, m: byte): (r: Flags)
    ensures r[Zero] == 1 <==> a == m
    ensures r[Negative] == Bit7(Wrap8(a - m))
    ensures r[Carry] == 1 <==> a >= m
    ensures forall i | 0 <= i < 8 && i != Zero && i != Negative && i != Carry :: r[i] == p[i]
  {
    SetZN(p[Carry := CompareCarry(a, m)], Wrap8(a - m))
  }

  /** The retirement of CMP with operand `Memory[addr]`: only the flags,
      PC and both counters change. */
  function Retire(c: State, addr: word, len: word): (r: State)
    ensures r.p[Zero] == 1 <==> c.a == c.mem[addr]
    ensures r.p[Negative] == Bit7(Wrap8(c.a - c.mem[addr]))
    ensures r.p[Carry] == 1 <==> c.a >= c.mem[addr]
    ensures r.p[Interrupt] == c.p[Interrupt] && r.p[Decimal] == c.p[Decimal]
    ensures r.p[Overflow] == c.p[Overflow]
    ensures r.p[Break] == c.p[Break] && r.p[Unused] == c.p[Unused]
    ensures r == c.(p := r.p, pc := Advance(c.pc, len), count := 1, extra := 0)
  {
    ResetCounters(c.(p := CompareFlags(c.p, c.a, c.mem[addr]), pc := Advance(c.pc, len)))
  }

  /** A compare is a binary-mode subtraction without borrow whose
      difference is thrown away: it leaves the flags Z, N and C exactly as
      SBC would, and keeps A. */
  lemma CompareIsSubtractWithoutStore(c: State, addr: word, len: word)
    requires c.p[Decimal] == 0 && c.p[Carry] == 1
    ensures var cmp, sbc := Retire(c, addr, len), Subtract.Retire(c, addr, len);
      && cmp.a == c.a
      && cmp.p[Zero] == sbc.p[Zero]
      && cmp.p[Negative] == sbc.p[Negative]
      && cmp.p[Carry] == sbc.p[Carry]
      && cmp.mem == sbc.mem && cmp.pc == sbc.pc
  {
    var sbc := Subtract.Retire(c, addr, len);
    assert sbc.a == Wrap8(c.a - c.mem[addr]);
  }
}

=== FILE: cpu.dfy ===
/** The processor state the interpreter owns: registers, the eight status
    bits `P[0..7]`, the flat 64 KiB memory, the per-instruction tick
    counter and penalty, the latched effective address and the operating
    mode. */
module Cpu {
  import opened Bytes

  /** `P [8]byte`, one 0/1 entry per status bit. */
  type Flags = p: seq<bit> | |p| == 8 witness [0, 0, 0, 0, 0, 0, 0, 0]

  /** `Memory [65536]byte`. */
  type Memory = m: seq<byte> | |m| == 0x1_0000 witness seq(0x1_0000, _ => 0)

  /** An index into `P`. */
  type FlagIndex = i: nat | i < 8

  const Carry: FlagIndex := 0
  const Zero: FlagIndex := 1
  const Interrupt: FlagIndex := 2
  const Decimal: FlagIndex := 3
  const Break: FlagIndex := 4
  const Unused: FlagIndex := 5
  const Overflow: FlagIndex := 6
  const Negative: FlagIndex := 7

  /** `CPU_MODE`: 0 selects the 6507 interpreter, anything else the 6502. */
  datatype Mode = Mode6507 | Mode6502

  function ModeOf(cpuMode: int): Mode {
    if cpuMode == 0 then Mode6507 else Mode6502
  }

  /** `count` is `opc_cycle_count` (ticks spent on the instruction in
      flight, 1 on its first tick), `extra` is `opc_cycle_extra` (its page
      or branch penalty), `bus` is `addressBUS` (the effective address
      latched on the first tick). */
  datatype State = State(
    pc: word,
    sp: byte,
    a: byte,
    x: byte,
    y: byte,
    p: Flags,
    mem: Memory,
    count: nat,
    extra: nat,
    bus: word,
    mode: Mode)

  /** The memory cell a push writes for stack pointer `sp`: page 1 on the
      6502, the zero-relative `sp` itself on the 6507. */
  function StackAddress(mode: Mode, sp: byte): (addr: word)
    ensures addr % 0x100 == sp
    ensures mode == Mode6502 ==> 0x100 <= addr <= 0x1FF
    ensures mode == Mode6507 ==> addr <= 0xFF
  {
    match mode
    case Mode6507 => sp
    case Mode6502 => 0x100 + sp
  }

  /** `resetIntOpcCycleCounters`, not part of this model; given its
      standard meaning: the next tick is the first of a new instruction
      and no penalty is pending. */
  function ResetCounters(c: State): State {
    c.(count := 1, extra := 0)
  }

  /** `PC += bytes` on a `uint16`. */
  function Advance(pc: word, len: word): word {
    Wrap16(pc + len)
  }

  /** `flags_Z(v)` and `flags_N(v)` together. Their bodies are not part of
      this model; this standard definition is an assumption. */
  function SetZN(p: Flags, v: byte): (r: Flags)
    ensures r[Zero] == 1 <==> v == 0
    ensures r[Negative] == 1 <==> v >= 0x80
    ensures forall i | 0 <= i < 8 && i != Zero && i != Negative :: r[i] == p[i]
  {
    p[Zero := if v == 0 then 1 else 0][Negative := Bit7(v)]
  }
}

=== FILE: decrement.dfy ===
/** DEC, decrement a memory cell by one (`CPU_6502_DEC_RW.go`), the
    read-modify-write through the data bus. */
module Decrement {
  import opened Bytes
  import opened Cpu

  /** The retirement of DEC on `Memory[addr]`: the cell wraps from 0x00 to
      0xFF, Z and N follow the new value, nothing else but PC and the
      counters changes. */
  function Retire(c: State, addr: word, len: word): (r: State)
    ensures (r.mem[addr] as int + 1) % 0x100 == c.mem[addr]
    ensures c.mem[addr] == 0 ==> r.mem[addr] == 0xFF
    ensures r.p[Zero] == 1 <==> r.mem[addr] == 0
    ensures r.p[Negative] == Bit7(r.mem[addr])
    ensures forall i | 0 <= i < 8 && i != Zero && i != Negative :: r.p[i] == c.p[i]
    ensures forall i | 0 <= i < 0x1_0000 && i != addr :: r.mem[i] == c.mem[i]
    ensures r == c.(mem := r.mem, p := r.p, pc := Advance(c.pc, len), count := 1, extra := 0)
  {
    var m := Wrap8(c.mem[addr] as int - 1);
    ResetCounters(c.(mem := c.mem[addr := m], p := SetZN(c.p, m), pc := Advance(c.pc, len)))
  }

  /** `n` successive DECs of the same cell. */
  function Repeat(c: State, addr: word, len: word, n: nat): State
    decreases n
  {
    if n == 0 then c else Retire(Repeat(c, addr, len, n - 1), addr, len)
  }

  /** After `n` DECs the cell holds its old value minus `n`, modulo 256. */
  lemma {:induction false} RepeatSubtracts(c: State, addr: word, len: word, n: nat)
    ensures Repeat(c, addr, len, n).mem[addr] == Wrap8(c.mem[addr] - n)
    decreases n
  {
    if n > 0 {
      RepeatSubtracts(c, addr, len, n - 1);
      var before := Repeat(c, addr, len, n - 1);
      var after := Retire(before, addr, len);
      assert after.mem[addr] == Wrap8(before.mem[addr] as int - 1);
      WrapThenDecrement(c.mem[addr] - (n - 1));
    }
  }

  /** Any multiple of 256 DECs brings the cell back to where it started. */
  lemma FullCircle(c: State, addr: word, len: word, laps: nat)
    ensures Repeat(c, addr, len, 0x100 * laps).mem[addr] == c.mem[addr]
  {
    RepeatSubtracts(c, addr, len, 0x100 * laps);
    WrapPeriodic(c.mem[addr], laps);
  }

  lemma WrapPeriodic(m: byte, laps: nat)
    ensures Wrap8(m - 0x100 * laps) == m
  {
    var x: int := m - 0x100 * laps;
    assert x == 0x100 * (-(laps as int)) + m;
  }

  lemma WrapThenDecrement(x: int)
    ensures Wrap8(Wrap8(x) - 1) == Wrap8(x - 1)
  {
    var q := x / 0x100;
    assert x == 0x100 * q + Wrap8(x);
    assert x - 1 == 0x100 * q + (Wrap8(x) - 1);
  }
}

=== FILE: dispatch.dfy ===
/** The opcode dispatcher `CPU_Interpreter` of `CORE/CPU.go`: fetch the
    opcode at PC, look it up, on the first tick of an instruction latch its
    effective address and decide its page penalty, call the handler for
    one tick, then run the unused-bit self-check. */
module Dispatch {
  import opened Bytes
  import opened Assumed
  import opened Cpu
  import Executor
  import Branch
  import OrMemory

  datatype Option<T> = None | Some(value: T)

  /** The 56 instruction names of the table. */
  datatype Mnemonic =
    | ADC | AND | ASL | BCC | BCS | BEQ | BIT | BMI | BNE | BPL | BRK | BVC | BVS | CLC
    | CLD | CLI | CLV | CMP | CPX | CPY | DEC | DEX | DEY | EOR | INC | INX | INY | JMP
    | JSR | LDA | LDX | LDY | LSR | NOP | ORA | PHA | PHP | PLA | PLP | ROL | ROR | RTI
    | RTS | SBC | SEC | SED | SEI | STA | STX | STY | TAX | TAY | TSX | TXA | TXS | TYA

  /** The addressing modes, one per `addr_mode_*` helper plus the forms
      that take no operand address. */
  datatype AddrMode =
    | Implied | Accumulator | Immediate | Zeropage | ZeropageX | ZeropageY
    | Absolute | AbsoluteX | AbsoluteY | Indirect | IndirectX | IndirectY | Relative

  /** What the first tick decides about the extra cycle: nothing; the page
      of the effective address against the page of PC; or, for a branch,
      the page of the target against the page of PC, decided only when
      status bit `flag` equals `value`. */
  datatype Penalty = NoPenalty | PageCross | BranchWhen(flag: FlagIndex, value: bit)

  /** One row of the dispatch table: handler, addressing mode, length in
      bytes and base cycle count. */
  datatype Descriptor = Descriptor(mnemonic: Mnemonic, mode: AddrMode, len: word, cycles: nat, penalty: Penalty)

  /** The instruction length each addressing mode implies: the opcode and
      no, one or two operand bytes. */
  function OperandLength(mode: AddrMode): word {
    match mode
    case Implied => 1
    case Accumulator => 1
    case Absolute => 3
    case AbsoluteX => 3
    case AbsoluteY => 3
    case Indirect => 3
    case _ => 2
  }

  /** The instructions whose only memory access is a read of the operand. */
  predicate IsRead(m: Mnemonic) {
    m == ADC || m == AND || m == CMP || m == EOR || m == LDA || m == LDX || m == LDY || m == ORA || m == SBC
  }

  predicate IsBranch(m: Mnemonic) {
    m == BCC || m == BCS || m == BEQ || m == BMI || m == BNE || m == BPL || m == BVC || m == BVS
  }

  /** The instructions that read, modify and write back a memory cell. */
  predicate IsReadModifyWrite(m: Mnemonic) {
    m == ASL || m == DEC || m == INC || m == LSR || m == ROL || m == ROR
  }

  /** The status bit each branch tests and the value that makes it taken. */
  function Condition(m: Mnemonic): Penalty
    requires IsBranch(m)
  {
    match m
    case BNE => BranchWhen(Zero, 0)
    case BEQ => BranchWhen(Zero, 1)
    case BPL => BranchWhen(Negative, 0)
    case BMI => BranchWhen(Negative, 1)
    case BVC => BranchWhen(Overflow, 0)
    case BVS => BranchWhen(Overflow, 1)
    case BCC => BranchWhen(Carry, 0)
    case BCS => BranchWhen(Carry, 1)
  }

  /** The regularities every row of the table keeps: the length is the
      one the addressing mode implies; only indexed reads (abs,X, abs,Y,
      (ind),Y) are charged a page crossing; exactly the branches use
      relative addressing and are charged a taken-branch penalty, on their
      own condition; the read-modify-write abs,X forms cost a fixed 7. */
  predicate WellFormed(d: Descriptor) {
    && d.len == OperandLength(d.mode)
    && (d.penalty == PageCross <==>
          IsRead(d.mnemonic) && (d.mode == AbsoluteX || d.mode == AbsoluteY || d.mode == IndirectY))
    && (d.mode == Relative <==> IsBranch(d.mnemonic))
    && (IsBranch(d.mnemonic) ==> d.penalty == Condition(d.mnemonic))
    && (!IsBranch(d.mnemonic) ==> !d.penalty.BranchWhen?)
    && (IsReadModifyWrite(d.mnemonic) && d.mode == AbsoluteX ==> d.cycles == 7)
    && 2 <= d.cycles <= 7
  }

  /** The `switch opcode` of `CPU_Interpreter`; `None` is its `default`
      case. The table is split by the high nibble of the opcode, the rows
      of the usual 6502 opcode chart. */
  function Decode(op: byte): (d: Option<Descriptor>)
    ensures d.Some? ==> WellFormed(d.value)
  {
    match op / 0x10
    case 0 => Row0(op)
    case 1 => Row1(op)
    case 2 => Row2(op)
    case 3 => Row3(op)
    case 4 => Row4(op)
    case 5 => Row5(op)
    case 6 => Row6(op)
    case 7 => Row7(op)
    case 8 => Row8(op)
    case 9 => Row9(op)
    case 10 => RowA(op)
    case 11 => RowB(op)
    case 12 => RowC(op)
    case 13 => RowD(op)
    case 14 => RowE(op)
    case 15 => RowF(op)
  }

  function Row0(op: byte): (d: Option<Descriptor>)
    requires op / 0x10 == 0x0
    ensures d.Some? ==> WellFormed(d.value)
  {
    match op
    case 0x00 => Some(Descriptor(BRK, Implied, 1, 7, NoPenalty))
    case 0x01 => Some(Descriptor(ORA, IndirectX, 2, 6, NoPenalty))
    case 0x05 => Some(Descriptor(ORA, Zeropage, 2, 3, NoPenalty))
    case 0x06 => Some(Descriptor(ASL, Zeropage, 2, 5, NoPenalty))
    case 0x08 => Some(Descriptor(PHP, Implied, 1, 3, NoPenalty))
    case 0x09 => Some(Descriptor(ORA, Immediate, 2, 2, NoPenalty))
    case 0x0A => Some(Descriptor(ASL, Accumulator, 1, 2, NoPenalty))
    case 0x0D => Some(Descriptor(ORA, Absolute, 3, 4, NoPenalty))
    case 0x0E => Some(Descriptor(ASL, Absolute, 3, 6, NoPenalty))
    case _ => None
  }

  function Row1(op: byte): (d: Option<Descriptor>)
    requires op / 0x10 == 0x1
    ensures d.Some? ==> WellFormed(d.value)
  {
    match op
    case 0x10 => Some(Descriptor(BPL, Relative, 2, 2, BranchWhen(Negative, 0)))
    case 0x11 => Some(Descriptor(ORA, IndirectY, 2, 5, PageCross))
    case 0x15 => Some(Descriptor(ORA, ZeropageX, 2, 4, NoPenalty))
    case 0x16 => Some(Descriptor(ASL, ZeropageX, 2, 6, NoPenalty))
    case 0x18 => Some(Descriptor(CLC, Implied, 1, 2, NoPenalty))
    case 0x19 => Some(Descriptor(ORA, AbsoluteY, 3, 4, PageCross))
    case 0x1D => Some(Descriptor(ORA, AbsoluteX, 3, 4, PageCross))
    case 0x1E => Some(Descriptor(ASL, AbsoluteX, 3, 7, NoPenalty))
    case _ => None
  }

  function Row2(op: byte): (d: Option<Descriptor>)
    requires op / 0x10 == 0x2
    ensures d.Some? ==> WellFormed(d.value)
  {
    match op
    case 0x20 => Some(Descriptor(JSR, Absolute, 3, 6, NoPenalty))
    case 0x21 => Some(Descriptor(AND, IndirectX, 2, 6, NoPenalty))
    case 0x24 => Some(Descriptor(BIT, Zeropage, 2, 3, NoPenalty))
    case 0x25 => Some(Descriptor(AND, Zeropage, 2, 3, NoPenalty))
    case 0x26 => Some(Descriptor(ROL, Zeropage, 2, 5, NoPenalty))
    case 0x28 => Some(Descriptor(PLP, Implied, 1, 4, NoPenalty))
    case 0x29 => Some(Descriptor(AND, Immediate, 2, 2, NoPenalty))
    case 0x2A => Some(Descriptor(ROL, Accumulator, 1, 2, NoPenalty))
    case 0x2C => Some(Descriptor(BIT, Absolute, 3, 4, NoPenalty))
    case 0x2D => Some(Descriptor(AND, Absolute, 3, 4, NoPenalty))
    case 0x2E => Some(Descriptor(ROL, Absolute, 3, 6, NoPenalty))
    case _ => None
  }

  function Row3(op: byte): (d: Option<Descriptor>)
    requires op / 0x10 == 0x3
    ensures d.Some? ==> WellFormed(d.value)
  {
    match op
    case 0x30 => Some(Descriptor(BMI, Relative, 2, 2, BranchWhen(Negative, 1)))
    case 0x31 => Some(Descriptor(AND, IndirectY, 2, 5, PageCross))
    case 0x35 => Some(Descriptor(AND, ZeropageX, 2, 4, NoPenalty))
    case 0x36 => Some(Descriptor(ROL, ZeropageX, 2, 6, NoPenalty))
    case 0x38 => Some(Descriptor(SEC, Implied, 1, 2, NoPenalty))
    case 0x39 => Some(Descriptor(AND, AbsoluteY, 3, 4, PageCross))
    case 0x3D => Some(Descriptor(AND, AbsoluteX, 3, 4, PageCross))
    case 0x3E => Some(Descriptor(ROL, AbsoluteX, 3, 7, NoPenalty))
    case _ => None
  }

  function Row4(op: byte): (d: Option<Descriptor>)
    requires op / 0x10 == 0x4
    ensures d.Some? ==> WellFormed(d.value)
  {
    match op
    case 0x40 => Some(Descriptor(RTI, Implied, 1, 6, NoPenalty))
    case 0x41 => Some(Descriptor(EOR, IndirectX, 2, 6, NoPenalty))
    case 0x45 => Some(Descriptor(EOR, Zeropage, 2, 3, NoPenalty))
    case 0x46 => Some(Descriptor(LSR, Zeropage, 2, 5, NoPenalty))
    case 0x48 => Some(Descriptor(PHA, Implied, 1, 3, NoPenalty))
    case 0x49 => Some(Descriptor(EOR, Immediate, 2, 2, NoPenalty))
    case 0x4A => Some(Descriptor(LSR, Accumulator, 1, 2, NoPenalty))
    case 0x4C => Some(Descriptor(JMP, Absolute, 3, 3, NoPenalty))
    case 0x4D => Some(Descriptor(EOR, Absolute, 3, 4, NoPenalty))
    case 0x4E => Some(Descriptor(LSR, Absolute, 3, 6, NoPenalty))
    case _ => None
  }

  function Row5(op: byte): (d: Option<Descriptor>)
    requires op / 0x10 == 0x5
    ensures d.Some? ==> WellFormed(d.value)
  {
    match op
    case 0x50 => Some(Descriptor(BVC, Relative, 2, 2, BranchWhen(Overflow, 0)))
    case 0x51 => Some(Descriptor(EOR, IndirectY, 2, 5, PageCross))
    case 0x55 => Some(Descriptor(EOR, ZeropageX, 2, 4, NoPenalty))
    case 0x56 => Some(Descriptor(LSR, ZeropageX, 2, 6, NoPenalty))
    case 0x58 => Some(Descriptor(CLI, Implied, 1, 2, NoPenalty))
    case 0x59 => Some(Descriptor(EOR, AbsoluteY, 3, 4, PageCross))
    case 0x5D => Some(Descriptor(EOR, AbsoluteX, 3, 4, PageCross))
    case 0x5E => Some(Descriptor(LSR, AbsoluteX, 3, 7, NoPenalty))
    case _ => None
  }

  function Row6(op: byte): (d: Option<Descriptor>)
    requires op / 0x10 == 0x6
    ensures d.Some? ==> WellFormed(d.value)
  {
    match op
    case 0x60 => Some(Descriptor(RTS, Implied, 1, 6, NoPenalty))
    case 0x61 => Some(Descriptor(ADC, IndirectX, 2, 6, NoPenalty))
    case 0x65 => Some(Descriptor(ADC, Zeropage, 2, 3, NoPenalty))
    case 0x66 => Some(Descriptor(ROR, Zeropage, 2, 5, NoPenalty))
    case 0x68 => Some(Descriptor(PLA, Implied, 1, 4, NoPenalty))
    case 0x69 => Some(Descriptor(ADC, Immediate, 2, 2, NoPenalty))
    case 0x6A => Some(Descriptor(ROR, Accumulator, 1, 2, NoPenalty))
    case 0x6C => Some(Descriptor(JMP, Indirect, 3, 5, NoPenalty))
    case 0x6D => Some(Descriptor(ADC, Absolute, 3, 4, NoPenalty))
    case 0x6E => Some(Descriptor(ROR, Absolute, 3, 6, NoPenalty))
    case _ => None
  }

  function Row7(op: byte): (d: Option<Descriptor>)
    requires op / 0x10 == 0x7
    ensures d.Some? ==> WellFormed(d.value)
  {
    match op
    case 0x70 => Some(Descriptor(BVS, Relative, 2, 2, BranchWhen(Overflow, 1)))
    case 0x71 => Some(Descriptor(ADC, IndirectY, 2, 5, PageCross))
    case 0x75 => Some(Descriptor(ADC, ZeropageX, 2, 4, NoPenalty))
    case 0x76 => Some(Descriptor(ROR, ZeropageX, 2, 6, NoPenalty))
    case 0x78 => Some(Descriptor(SEI, Implied, 1, 2, NoPenalty))
    case 0x79 => Some(Descriptor(ADC, AbsoluteY, 3, 4, PageCross))
    case 0x7D => Some(Descriptor(ADC, AbsoluteX, 3, 4, PageCross))
    case 0x7E => Some(Descriptor(ROR, AbsoluteX, 3, 7, NoPenalty))
    case _ => None
  }

  function Row8(op: byte): (d: Option<Descriptor>)
    requires op / 0x10 == 0x8
    ensures d.Some? ==> WellFormed(d.value)
  {
    match op
    case 0x81 => Some(Descriptor(STA, IndirectX, 2, 6, NoPenalty))
    case 0x84 => Some(Descriptor(STY, Zeropage, 2, 3, NoPenalty))
    case 0x85 => Some(Descriptor(STA, Zeropage, 2, 3, NoPenalty))
    case 0x86 => Some(Descriptor(STX, Zeropage, 2, 3, NoPenalty))
    case 0x88 => Some(Descriptor(DEY, Implied, 1, 2, NoPenalty))
    case 0x8A => Some(Descriptor(TXA, Implied, 1, 2, NoPenalty))
    case 0x8C => Some(Descriptor(STY, Absolute, 3, 4, NoPenalty))
    case 0x8D => Some(Descriptor(STA, Absolute, 3, 4, NoPenalty))
    case 0x8E => Some(Descriptor(STX, Absolute, 3, 4, NoPenalty))
    case _ => None
  }

  function Row9(op: byte): (d: Option<Descriptor>)
    requires op / 0x10 == 0x9
    ensures d.Some? ==> WellFormed(d.value)
  {
    match op
    case 0x90 => Some(Descriptor(BCC, Relative, 2, 2, BranchWhen(Carry, 0)))
    case 0x91 => Some(Descriptor(STA, IndirectY, 2, 6, NoPenalty))
    case 0x94 => Some(Descriptor(STY, ZeropageX, 2, 4, NoPenalty))
    case 0x95 => Some(Descriptor(STA, ZeropageX, 2, 4, NoPenalty))
    case 0x96 => Some(Descriptor(STX, ZeropageY, 2, 4, NoPenalty))
    case 0x98 => Some(Descriptor(TYA, Implied, 1, 2, NoPenalty))
    case 0x99 => Some(Descriptor(STA, AbsoluteY, 3, 5, NoPenalty))
    case 0x9A => Some(Descriptor(TXS, Implied, 1, 2, NoPenalty))
    case 0x9D => Some(Descriptor(STA, AbsoluteX, 3, 5, NoPenalty))
    case _ => None
  }

  function RowA(op: byte): (d: Option<Descriptor>)
    requires op / 0x10 == 0xA
    ensures d.Some? ==> WellFormed(d.value)
  {
    match op
    case 0xA0 => Some(Descriptor(LDY, Immediate, 2, 2, NoPenalty))
    case 0xA1 => Some(Descriptor(LDA, IndirectX, 2, 6, NoPenalty))
    case 0xA2 => Some(Descriptor(LDX, Immediate, 2, 2, NoPenalty))
    case 0xA4 => Some(Descriptor(LDY, Zeropage, 2, 3, NoPenalty))
    case 0xA5 => Some(Descriptor(LDA, Zeropage, 2, 3, NoPenalty))
    case 0xA6 => Some(Descriptor(LDX, Zeropage, 2, 3, NoPenalty))
    case 0xA8 => Some(Descriptor(TAY, Implied, 1, 2, NoPenalty))
    case 0xA9 => Some(Descriptor(LDA, Immediate, 2, 2, NoPenalty))
    case 0xAA => Some(Descriptor(TAX, Implied, 1, 2, NoPenalty))
    case 0xAC => Some(Descriptor(LDY, Absolute, 3, 4, NoPenalty))
    case 0xAD => Some(Descriptor(LDA, Absolute, 3, 4, NoPenalty))
    case 0xAE => Some(Descriptor(LDX, Absolute, 3, 4, NoPenalty))
    case _ => None
  }

  function RowB(op: byte): (d: Option<Descriptor>)
    requires op / 0x10 == 0xB
    ensures d.Some? ==> WellFormed(d.value)
  {
    match op
    case 0xB0 => Some(Descriptor(BCS, Relative, 2, 2, BranchWhen(Carry, 1)))
    case 0xB1 => Some(Descriptor(LDA, IndirectY, 2, 5, PageCross))
    case 0xB4 => Some(Descriptor(LDY, ZeropageX, 2, 4, NoPenalty))
    case 0xB5 => Some(Descriptor(LDA, ZeropageX, 2, 4, NoPenalty))
    case 0xB6 => Some(Descriptor(LDX, ZeropageY, 2, 4, NoPenalty))
    case 0xB8 => Some(Descriptor(CLV, Implied, 1, 2, NoPenalty))
    case 0xB9 => Some(Descriptor(LDA, AbsoluteY, 3, 4, PageCross))
    case 0xBA => Some(Descriptor(TSX, Implied, 1, 2, NoPenalty))
    case 0xBC => Some(Descriptor(LDY, AbsoluteX, 3, 4, PageCross))
    case 0xBD => Some(Descriptor(LDA, AbsoluteX, 3, 4, PageCross))
    case 0xBE => Some(Descriptor(LDX, AbsoluteY, 3, 4, PageCross))
    case _ => None
  }

  function RowC(op: byte): (d: Option<Descriptor>)
    requires op / 0x10 == 0xC
    ensures d.Some? ==> WellFormed(d.value)
  {
    match op
    case 0xC0 => Some(Descriptor(CPY, Immediate, 2, 2, NoPenalty))
    case 0xC1 => Some(Descriptor(CMP, IndirectX, 2, 6, NoPenalty))
    case 0xC4 => Some(Descriptor(CPY, Zeropage, 2, 3, NoPenalty))
    case 0xC5 => Some(Descriptor(CMP, Zeropage, 2, 3, NoPenalty))
    case 0xC6 => Some(Descriptor(DEC, Zeropage, 2, 5, NoPenalty))
    case 0xC8 => Some(Descriptor(INY, Implied, 1, 2, NoPenalty))
    case 0xC9 => Some(Descriptor(CMP, Immediate, 2, 2, NoPenalty))
    case 0xCA => Some(Descriptor(DEX, Implied, 1, 2, NoPenalty))
    case 0xCC => Some(Descriptor(CPY, Absolute, 3, 4, NoPenalty))
    case 0xCD => Some(Descriptor(CMP, Absolute, 3, 4, NoPenalty))
    case 0xCE => Some(Descriptor(DEC, Absolute, 3, 6, NoPenalty))
    case _ => None
  }

  function RowD(op: byte): (d: Option<Descriptor>)
    requires op / 0x10 == 0xD
    ensures d.Some? ==> WellFormed(d.value)
  {
    match op
    case 0xD0 => Some(Descriptor(BNE, Relative, 2, 2, BranchWhen(Zero, 0)))
    case 0xD1 => Some(Descriptor(CMP, IndirectY, 2, 5, PageCross))
    case 0xD5 => Some(Descriptor(CMP, ZeropageX, 2, 4, NoPenalty))
    case 0xD6 => Some(Descriptor(DEC, ZeropageX, 2, 6, NoPenalty))
    case 0xD8 => Some(Descriptor(CLD, Implied, 1, 2, NoPenalty))
    case 0xD9 => Some(Descriptor(CMP, AbsoluteY, 3, 4, PageCross))
    case 0xDD => Some(Descriptor(CMP, AbsoluteX, 3, 4, PageCross))
    case 0xDE => Some(Descriptor(DEC, AbsoluteX, 3, 7, NoPenalty))
    case _ => None
  }

  function RowE(op: byte): (d: Option<Descriptor>)
    requires op / 0x10 == 0xE
    ensures d.Some? ==> WellFormed(d.value)
  {
    match op
    case 0xE0 => Some(Descriptor(CPX, Immediate, 2, 2, NoPenalty))
    case 0xE1 => Some(Descriptor(SBC, IndirectX, 2, 6, NoPenalty))
    case 0xE4 => Some(Descriptor(CPX, Zeropage, 2, 3, NoPenalty))
    case 0xE5 => Some(Descriptor(SBC, Zeropage, 2, 3, NoPenalty))
    case 0xE6 => Some(Descriptor(INC, Zeropage, 2, 5, NoPenalty))
    case 0xE8 => Some(Descriptor(INX, Implied, 1, 2, NoPenalty))
    case 0xE9 => Some(Descriptor(SBC, Immediate, 2, 2, NoPenalty))
    case 0xEA => Some(Descriptor(NOP, Implied, 1, 2, NoPenalty))
    case 0xEC => Some(Descriptor(CPX, Absolute, 3, 4, NoPenalty))
    case 0xED => Some(Descriptor(SBC, Absolute, 3, 4, NoPenalty))
    case 0xEE => Some(Descriptor(INC, Absolute, 3, 6, NoPenalty))
    case _ => None
  }

  function RowF(op: byte): (d: Option<Descriptor>)
    requires op / 0x10 == 0xF
    ensures d.Some? ==> WellFormed(d.value)
  {
    match op
    case 0xF0 => Some(Descriptor(BEQ, Relative, 2, 2, BranchWhen(Zero, 1)))
    case 0xF1 => Some(Descriptor(SBC, IndirectY, 2, 5, PageCross))
    case 0xF5 => Some(Descriptor(SBC, ZeropageX, 2, 4, NoPenalty))
    case 0xF6 => Some(Descriptor(INC, ZeropageX, 2, 6, NoPenalty))
    case 0xF8 => Some(Descriptor(SED, Implied, 1, 2, NoPenalty))
    case 0xF9 => Some(Descriptor(SBC, AbsoluteY, 3, 4, PageCross))
    case 0xFD => Some(Descriptor(SBC, AbsoluteX, 3, 4, PageCross))
    case 0xFE => Some(Descriptor(INC, AbsoluteX, 3, 7, NoPenalty))
    case _ => None
  }

  /** Stores are never charged a page crossing: STA abs,X and abs,Y cost
      a fixed 5 and STA (ind),Y a fixed 6. */
  lemma StoreRows()
    ensures Decode(0x9D) == Some(Descriptor(STA, AbsoluteX, 3, 5, NoPenalty))
    ensures Decode(0x99) == Some(Descriptor(STA, AbsoluteY, 3, 5, NoPenalty))
    ensures Decode(0x91) == Some(Descriptor(STA, IndirectY, 2, 6, NoPenalty))
    ensures forall op: byte | Decode(op).Some? && Decode(op).value.mnemonic == STA ::
      Decode(op).value.penalty == NoPenalty
  {
  }

  /** The read-modify-write abs,X forms ASL, DEC and INC cost a fixed 7
      with no penalty. */
  lemma ReadModifyWriteAbsoluteXRows()
    ensures Decode(0x1E) == Some(Descriptor(ASL, AbsoluteX, 3, 7, NoPenalty))
    ensures Decode(0xDE) == Some(Descriptor(DEC, AbsoluteX, 3, 7, NoPenalty))
    ensures Decode(0xFE) == Some(Descriptor(INC, AbsoluteX, 3, 7, NoPenalty))
  {
  }

  /** `PC+uint16(memValue)+2`: the target of a branch at `pc` with signed
      offset `offset`, in 16-bit arithmetic. */
  function BranchTarget(pc: word, offset: Branch.Offset): word {
    Wrap16(pc + Wrap16(offset) + 2)
  }

  /** The `addr_mode_*` helpers, whose bodies are not part of this model:
      the effective address of an addressing mode, computed from the
      machine as it stands (the operand bytes after PC, X, Y and the
      memory they point into). */
  type Resolver = (State, AddrMode) -> word

  /** The first-tick block of a table row. `resolve(c, mode)` stands for
      the row's `addr_mode_*(PC+1)` call on the current state;
      the branch offset is taken to be the two's-complement reading of the
      operand byte it latches. On every later tick nothing happens here. */
  function FirstTick(c: State, d: Descriptor, resolve: Resolver): (r: State)
    requires WellFormed(d)
    ensures c.count != 1 ==> r == c
    ensures c.count == 1 && d.mode != Implied && d.mode != Accumulator ==> r.bus == resolve(c, d.mode)
    ensures (d.mode == Implied || d.mode == Accumulator) ==> r.bus == c.bus
    ensures c.count == 1 && d.penalty == PageCross ==> (r.extra == 1 <==> PageCrossed(r.bus, c.pc)) && r.extra <= 1
    ensures d.penalty == NoPenalty ==> r.extra == c.extra
    ensures d.penalty.BranchWhen? && c.p[d.penalty.flag] != d.penalty.value ==> r.extra == c.extra
    ensures c.count == 1 && d.penalty.BranchWhen? && c.p[d.penalty.flag] == d.penalty.value ==>
      && (r.extra == 1 <==> PageCrossed(c.pc, BranchTarget(c.pc, TwosComplement(c.mem[r.bus]))))
      && r.extra <= 1
    ensures r == c.(bus := r.bus, extra := r.extra)
  {
    if c.count != 1 || d.mode == Implied || d.mode == Accumulator then c
    else
      var bus := resolve(c, d.mode);
      var extra :=
        match d.penalty
        case NoPenalty => c.extra
        case PageCross => if PageCrossed(bus, c.pc) then 1 else 0
        case BranchWhen(flag, value) =>
          if c.p[flag] != value then c.extra
          else if PageCrossed(c.pc, BranchTarget(c.pc, TwosComplement(c.mem[bus]))) then 1 else 0;
      c.(bus := bus, extra := extra)
  }

  /** The mnemonics whose handlers this model covers. */
  predicate IsModelled(m: Mnemonic) {
    m in {SBC, CMP, ORA, BIT, ROL, DEC, PHA, RTI, TYA, SEI, CLV, SED, CLC, BEQ, BVS}
  }

  /** The mnemonic each modelled handler implements. */
  function MnemonicOf(i: Executor.Instr): Mnemonic {
    match i
    case Sbc(_, _, _) => SBC
    case Cmp(_, _, _) => CMP
    case Ora(_, _, _) => ORA
    case Bit(_, _, _) => BIT
    case Rol(_, _, _) => ROL
    case Dec(_, _, _) => DEC
    case Pha(_, _) => PHA
    case Rti(_) => RTI
    case Tya(_, _) => TYA
    case Sei(_, _) => SEI
    case Clv(_, _) => CLV
    case Sed(_, _) => SED
    case Clc(_, _) => CLC
    case Beq(_, _, _) => BEQ
    case Bvs(_, _, _) => BVS
  }

  /** The handlers that are handed the latched effective address. */
  predicate TakesAddress(i: Executor.Instr) {
    i.Sbc? || i.Cmp? || i.Ora? || i.Bit? || i.Rol? || i.Dec? || i.Beq?
  }

  /** The handler a row calls, with the arguments the row passes, for the
      handlers this model covers; `None` for the others (and for ROL on the
      accumulator, a different routine). */
  function HandlerFor(d: Descriptor, c: State): (h: Option<Executor.Instr>)
    ensures h.Some? <==> IsModelled(d.mnemonic) && !(d.mnemonic == ROL && d.mode == Accumulator)
    ensures h.Some? ==> MnemonicOf(h.value) == d.mnemonic
    ensures h.Some? ==> h.value.cycles == d.cycles
    ensures h.Some? && !h.value.Rti? && !h.value.Bvs? ==> h.value.len == d.len
    ensures h.Some? && h.value.Bvs? ==> h.value.offset == TwosComplement(c.mem[c.bus])
    ensures h.Some? && TakesAddress(h.value) ==> h.value.addr == c.bus
  {
    match d.mnemonic
    case SBC => Some(Executor.Sbc(c.bus, d.len, d.cycles))
    case CMP => Some(Executor.Cmp(c.bus, d.len, d.cycles))
    case ORA => Some(Executor.Ora(c.bus, d.len, d.cycles))
    case BIT => Some(Executor.Bit(c.bus, d.len, d.cycles))
    case ROL => if d.mode == Accumulator then None else Some(Executor.Rol(c.bus, d.len, d.cycles))
    case DEC => Some(Executor.Dec(c.bus, d.len, d.cycles))
    case PHA => Some(Executor.Pha(d.len, d.cycles))
    case RTI => Some(Executor.Rti(d.cycles))
    case TYA => Some(Executor.Tya(d.len, d.cycles))
    case SEI => Some(Executor.Sei(d.len, d.cycles))
    case CLV => Some(Executor.Clv(d.len, d.cycles))
    case SED => Some(Executor.Sed(d.len, d.cycles))
    case CLC => Some(Executor.Clc(d.len, d.cycles))
    case BEQ => Some(Executor.Beq(c.bus, d.len, d.cycles))
    case BVS => Some(Executor.Bvs(TwosComplement(c.mem[c.bus]), d.len, d.cycles))
    case _ => None
  }

  /** The two ways `CPU_Interpreter` ends the program (`os.Exit`). */
  datatype Fault = UnknownOpcode(op: byte, at: word) | UnusedFlagCleared

  /** The result of one call of the interpreter: the next state; a fatal
      stop with the state it happened in; or a row whose handler is not
      part of this model, with the state after the row's first-tick
      block. */
  datatype Outcome =
    | Running(state: State)
    | Fatal(fault: Fault, state: State)
    | Unmodelled(state: State, row: Descriptor)

  /** One call of `CPU_Interpreter`. */
  function Interpret(c: State, resolve: Resolver): (o: Outcome)
    ensures o.Fatal? && o.fault.UnknownOpcode? <==> Decode(c.mem[c.pc]).None?
    ensures Decode(c.mem[c.pc]).None? ==> o == Fatal(UnknownOpcode(c.mem[c.pc], c.pc), c)
    ensures o.Running? ==> o.state.p[Unused] == 1
    ensures o.Running? || (o.Fatal? && o.fault == UnusedFlagCleared) ==>
      o.state.mode == c.mode && o.state.p[Unused] == c.p[Unused] && o.state.count >= 1
    ensures c.extra <= 1 && o.Running? ==> o.state.extra <= 1
  {
    var op := c.mem[c.pc];
    match Decode(op)
    case None => Fatal(UnknownOpcode(op, c.pc), c)
    case Some(d) =>
      var s := FirstTick(c, d, resolve);
      match HandlerFor(d, s)
      case None => Unmodelled(s, d)
      case Some(i) =>
        var r := Executor.Tick(s, i);
        if r.p[Unused] != 1 then Fatal(UnusedFlagCleared, r) else Running(r)
  }

  /** For a modelled handler the self-check fails exactly when the unused
      bit was already clear: no modelled handler clears it. */
  lemma SelfCheckFiresOnlyIfAlreadyClear(c: State, resolve: Resolver)
    requires Decode(c.mem[c.pc]).Some?
    requires HandlerFor(Decode(c.mem[c.pc]).value, FirstTick(c, Decode(c.mem[c.pc]).value, resolve)).Some?
    ensures Interpret(c, resolve).Fatal? <==> c.p[Unused] != 1
  {
  }

  /** ORA (ind),Y checks for a page crossing itself on entry, after the
      interpreter's first-tick block has already charged the row's
      penalty; both compare the latched address with PC, so ORA's own
      check changes nothing. */
  lemma OraEntryCheckAgrees(c: State, resolve: Resolver)
    requires c.count == 1 && c.mem[c.pc] == OrMemory.IndirectY
    ensures var d := Descriptor(ORA, IndirectY, 2, 5, PageCross);
      var s := FirstTick(c, d, resolve);
      && Decode(c.mem[c.pc]) == Some(d)
      && HandlerFor(d, s) == Some(Executor.Ora(s.bus, 2, 5))
      && Executor.Prepare(s, Executor.Ora(s.bus, 2, 5)) == s
  {
  }

  /** No modelled instruction stays busy for more than its row's cycles
      plus 2, nor for more than 9 ticks, when it starts with at most one
      pending penalty cycle: the Go `byte` counters cannot wrap. */
  lemma BoundAtMostNine(c: State, resolve: Resolver, d: Descriptor, i: Executor.Instr)
    requires c.count == 1 && c.extra <= 1 && Decode(c.mem[c.pc]) == Some(d)
    requires HandlerFor(d, FirstTick(c, d, resolve)) == Some(i)
    ensures var n := Executor.Bound(Executor.Prepare(FirstTick(c, d, resolve), i), i);
      n <= d.cycles + 2 && n <= 9
  {
    var s := FirstTick(c, d, resolve);
    assert s.extra <= 1;
    assert Executor.Prepare(s, i).extra <= 1;
  }

  /** `n` calls of the interpreter, stopping at the first outcome that is
      not `Running` (`os.Exit`). A machine still running has kept its mode
      and, after at least one call, has passed the unused-bit self-check. */
  function Steps(c: State, resolve: Resolver, n: nat): (o: Outcome)
    ensures o.Running? ==> o.state.mode == c.mode
    ensures o.Running? && n >= 1 ==> o.state.p[Unused] == 1
    ensures c.extra <= 1 && o.Running? ==> o.state.extra <= 1
    decreases n
  {
    if n == 0 then Running(c) else Continue(Steps(c, resolve, n - 1), resolve)
  }

  /** One more call of the interpreter, unless the machine has stopped. */
  function Continue(o: Outcome, resolve: Resolver): Outcome {
    if o.Running? then Interpret(o.state, resolve) else o
  }

  /** From the first tick of a modelled instruction the interpreter
      follows that one handler tick by tick: the opcode, the row and the
      handler's arguments stay as the first tick left them. */
  lemma {:induction false} StepsFollowHandler(c: State, resolve: Resolver, d: Descriptor,
                                              i: Executor.Instr, k: nat)
    requires c.count == 1 && c.p[Unused] == 1 && Decode(c.mem[c.pc]) == Some(d)
    requires HandlerFor(d, FirstTick(c, d, resolve)) == Some(i)
    requires 1 <= k <= Executor.Bound(Executor.Prepare(FirstTick(c, d, resolve), i), i)
    ensures Steps(c, resolve, k) == Running(Executor.Run(FirstTick(c, d, resolve), i, k))
    decreases k, 1
  {
    if k == 1 {
      FirstStep(c, resolve, d, i);
    } else {
      LaterStep(c, resolve, d, i, k);
    }
  }

  /** The inductive case of `StepsFollowHandler`. */
  lemma {:induction false} LaterStep(c: State, resolve: Resolver, d: Descriptor,
                                     i: Executor.Instr, k: nat)
    requires c.count == 1 && c.p[Unused] == 1 && Decode(c.mem[c.pc]) == Some(d)
    requires HandlerFor(d, FirstTick(c, d, resolve)) == Some(i)
    requires 2 <= k <= Executor.Bound(Executor.Prepare(FirstTick(c, d, resolve), i), i)
    ensures Steps(c, resolve, k) == Running(Executor.Run(FirstTick(c, d, resolve), i, k))
    decreases k, 0
  {
    var s := FirstTick(c, d, resolve);
    var previous: nat := k - 1;
    StepsFollowHandler(c, resolve, d, i, previous);
    BusyStep(c, resolve, d, i, previous, k);
    StepAfter(c, resolve, previous, k);
    ContinueRunning(Executor.Run(s, i, previous), resolve);
  }

  /** One more call of the interpreter after the first `m`. */
  lemma StepAfter(c: State, resolve: Resolver, m: nat, k: nat)
    requires k == m + 1
    ensures Steps(c, resolve, k) == Continue(Steps(c, resolve, m), resolve)
  {
    assert k - 1 == m;
  }

  /** `os.Exit`: once a call has stopped the machine, no later call
      changes the outcome. */
  lemma {:induction false} StaysStopped(c: State, resolve: Resolver, m: nat, n: nat)
    requires m <= n && !Steps(c, resolve, m).Running?
    ensures Steps(c, resolve, n) == Steps(c, resolve, m)
    decreases n
  {
    if n > m {
      var previous: nat := n - 1;
      StaysStopped(c, resolve, m, previous);
      StepAfter(c, resolve, previous, n);
      ContinueStopped(Steps(c, resolve, previous), resolve);
    }
  }

  /** A stopped machine takes no further call of the interpreter. */
  lemma ContinueStopped(o: Outcome, resolve: Resolver)
    requires !o.Running?
    ensures Continue(o, resolve) == o
  {
  }

  /** A running machine takes its next call of the interpreter. */
  lemma ContinueRunning(t: State, resolve: Resolver)
    ensures Continue(Running(t), resolve) == Interpret(t, resolve)
  {
  }

  /** The base case of `StepsFollowHandler`: the first call of the
      interpreter is the handler's first tick. */
  lemma FirstStep(c: State, resolve: Resolver, d: Descriptor, i: Executor.Instr)
    requires c.p[Unused] == 1 && Decode(c.mem[c.pc]) == Some(d)
    requires HandlerFor(d, FirstTick(c, d, resolve)) == Some(i)
    ensures Steps(c, resolve, 1) == Running(Executor.Run(FirstTick(c, d, resolve), i, 1))
  {
    OneModelledTick(c, resolve, d, i);
    assert Steps(c, resolve, 1) == Interpret(c, resolve);
  }

  /** The inductive step of `StepsFollowHandler`: a busy state reached by
      the handler is handed to the same handler again. */
  lemma BusyStep(c: State, resolve: Resolver, d: Descriptor, i: Executor.Instr, m: nat, k: nat)
    requires c.count == 1 && c.p[Unused] == 1 && Decode(c.mem[c.pc]) == Some(d)
    requires HandlerFor(d, FirstTick(c, d, resolve)) == Some(i)
    requires k == m + 1 && 2 <= k <= Executor.Bound(Executor.Prepare(FirstTick(c, d, resolve), i), i)
    ensures var s := FirstTick(c, d, resolve);
      Interpret(Executor.Run(s, i, m), resolve) == Running(Executor.Run(s, i, k))
  {
    var s := FirstTick(c, d, resolve);
    var t := Executor.Run(s, i, m);
    Executor.BusyStateFrame(s, i, m, k);
    HandlerReadsBusAndMemory(d, s, t);
    ResumedTick(t, resolve, d, i);
    Executor.RunOneMore(s, i, m, k);
  }

  /** The handler arguments depend only on the latched address and the
      memory. */
  lemma HandlerReadsBusAndMemory(d: Descriptor, s: State, t: State)
    requires t.bus == s.bus && t.mem == s.mem
    ensures HandlerFor(d, t) == HandlerFor(d, s)
  {
  }

  /** On a later tick the first-tick block does nothing, so the
      interpreter is one tick of the handler on the state as it stands. */
  lemma ResumedTick(t: State, resolve: Resolver, d: Descriptor, i: Executor.Instr)
    requires t.count != 1 && t.p[Unused] == 1 && Decode(t.mem[t.pc]) == Some(d)
    requires HandlerFor(d, t) == Some(i)
    ensures Interpret(t, resolve) == Running(Executor.Tick(t, i))
  {
    assert FirstTick(t, d, resolve) == t;
    OneModelledTick(t, resolve, d, i);
  }

  /** A call of the interpreter on a modelled row with the unused bit set
      is one tick of the row's handler after the row's first-tick block. */
  lemma OneModelledTick(c: State, resolve: Resolver, d: Descriptor, i: Executor.Instr)
    requires c.p[Unused] == 1 && Decode(c.mem[c.pc]) == Some(d)
    requires HandlerFor(d, FirstTick(c, d, resolve)) == Some(i)
    ensures Interpret(c, resolve) == Running(Executor.Tick(FirstTick(c, d, resolve), i))
  {
  }

  /** The interpreter-level form of the tick protocol: from the first tick
      of a modelled instruction, exactly as many interpreter calls as the
      handler's bound leave the machine running in the state the
      handler's retirement function computes, counter back at 1. */
  lemma InterpreterRetiresAtBound(c: State, resolve: Resolver, d: Descriptor, i: Executor.Instr)
    requires c.count == 1 && c.p[Unused] == 1 && Decode(c.mem[c.pc]) == Some(d)
    requires HandlerFor(d, FirstTick(c, d, resolve)) == Some(i)
    requires Executor.Bound(Executor.Prepare(FirstTick(c, d, resolve), i), i) >= 1
    ensures var s := FirstTick(c, d, resolve);
      var n := Executor.Bound(Executor.Prepare(s, i), i);
      && Steps(c, resolve, n) == Running(Executor.Retire(Executor.Prepare(s, i), i))
      && Executor.Retire(Executor.Prepare(s, i), i).count == 1
  {
    var s := FirstTick(c, d, resolve);
    var n := Executor.Bound(Executor.Prepare(s, i), i);
    StepsFollowHandler(c, resolve, d, i, n);
    Executor.RetiresAtBound(s, i);
  }
}

=== FILE: executor.dfy ===
/** The busy-then-retire tick protocol every handler repeats. While the
    tick counter is below the handler's bound, a tick only moves the
    counter; on the tick that reaches the bound the whole effect of the
    instruction is applied at once by the handler's retirement function. */
module Executor {
  import opened Bytes
  import opened Cpu
  import Subtract
  import Compare
  import OrMemory
  import BitTest
  import RotateLeft
  import Decrement
  import Push
  import ReturnFromInterrupt
  import Transfer
  import FlagOps
  import Branch

  /** A modelled handler with the arguments the interpreter passes it: the
      effective address, the instruction length and the base cycle count.
      RTI is handed a length too but never uses it; BVS is handed its
      signed offset directly. */
  datatype Instr =
    | Sbc(addr: word, len: word, cycles: nat)
    | Cmp(addr: word, len: word, cycles: nat)
    | Ora(addr: word, len: word, cycles: nat)
    | Bit(addr: word, len: word, cycles: nat)
    | Rol(addr: word, len: word, cycles: nat)
    | Dec(addr: word, len: word, cycles: nat)
    | Pha(len: word, cycles: nat)
    | Rti(cycles: nat)
    | Tya(len: word, cycles: nat)
    | Sei(len: word, cycles: nat)
    | Clv(len: word, cycles: nat)
    | Sed(len: word, cycles: nat)
    | Clc(len: word, cycles: nat)
    | Beq(addr: word, len: word, cycles: nat)
    | Bvs(offset: Branch.Offset, len: word, cycles: nat)

  /** What a handler does on entry, before its busy check: only ORA has
      anything to do (its own first-tick penalty). */
  function Prepare(c: State, i: Instr): (r: State)
    ensures r == c.(extra := r.extra)
  {
    if i.Ora? then OrMemory.Prepare(c, i.addr) else c
  }

  /** The busy bound of each handler, as each of their files writes it.
      Every handler spends at least its base cycles, at most the pending
      penalty on top, and only a taken branch one cycle more. */
  function Bound(c: State, i: Instr): (n: nat)
    ensures i.cycles <= n <= i.cycles + 1 + c.extra
    ensures !i.Beq? && !i.Bvs? ==> n <= i.cycles + c.extra
  {
    match i
    case Sbc(_, _, cycles) => cycles + c.extra
    case Cmp(_, _, cycles) => cycles + c.extra
    case Ora(_, _, cycles) => cycles + c.extra
    case Beq(_, _, cycles) => Branch.Bound(c.p[Zero] == 1, cycles, c.extra)
    case Bvs(_, _, cycles) => Branch.Bound(c.p[Overflow] == 1, cycles, c.extra)
    case _ => i.cycles
  }

  /** The last tick of each handler. */
  function Retire(c: State, i: Instr): (r: State)
    ensures r.count == 1
    ensures r.extra <= c.extra
    ensures r.mode == c.mode
    ensures r.p[Break] == c.p[Break] && r.p[Unused] == c.p[Unused]
  {
    match i
    case Sbc(addr, len, _) => Subtract.Retire(c, addr, len)
    case Cmp(addr, len, _) => Compare.Retire(c, addr, len)
    case Ora(addr, len, _) => OrMemory.Retire(c, addr, len)
    case Bit(addr, len, _) => BitTest.Retire(c, addr, len)
    case Rol(addr, len, _) => RotateLeft.Retire(c, addr, len)
    case Dec(addr, len, _) => Decrement.Retire(c, addr, len)
    case Pha(len, _) => Push.Retire(c, len)
    case Rti(_) => ReturnFromInterrupt.Retire(c)
    case Tya(len, _) => Transfer.Retire(c, len)
    case Sei(len, _) => FlagOps.Sei(c, len)
    case Clv(len, _) => FlagOps.Clv(c, len)
    case Sed(len, _) => FlagOps.Sed(c, len)
    case Clc(len, _) => FlagOps.Clc(c, len)
    case Beq(addr, len, _) => Branch.Beq(c, addr, len)
    case Bvs(offset, len, _) => Branch.Bvs(c, offset, len)
  }

  /** One call of the handler: a busy tick moves only the counter (after
      ORA's entry check); the tick at the bound retires. The break and
      unused bits and the mode survive every tick. */
  function Tick(c: State, i: Instr): (r: State)
    ensures var d := Prepare(c, i);
      d.count < Bound(d, i) ==> r == d.(count := d.count + 1)
    ensures var d := Prepare(c, i);
      d.count >= Bound(d, i) ==> r == Retire(d, i)
    ensures r.mode == c.mode
    ensures r.p[Break] == c.p[Break] && r.p[Unused] == c.p[Unused]
    ensures r.count >= 1
    ensures c.extra <= 1 ==> r.extra <= 1
  {
    var d := Prepare(c, i);
    if d.count < Bound(d, i) then d.(count := d.count + 1) else Retire(d, i)
  }

  /** `n` successive ticks of the same handler. However many ticks run,
      the mode and the break and unused bits are those it started with. */
  function Run(c: State, i: Instr, n: nat): (r: State)
    ensures r.mode == c.mode
    ensures r.p[Break] == c.p[Break] && r.p[Unused] == c.p[Unused]
    ensures n >= 1 ==> r.count >= 1
    decreases n
  {
    if n == 0 then c else Tick(Run(c, i, n - 1), i)
  }

  /** The retirement functions overwrite the tick counter, so the count a
      handler retires with makes no difference. */
  lemma RetireIgnoresCount(c: State, i: Instr, k: nat)
    ensures Retire(c.(count := k), i) == Retire(c, i)
  {
    if i.Sbc? {
      SubtractIgnoresCount(c, i.addr, i.len, k);
    } else if i.Cmp? || i.Ora? || i.Bit? || i.Rol? || i.Dec? || i.Pha? || i.Rti? {
      MemoryHandlersIgnoreCount(c, i, k);
    } else {
      RegisterHandlersIgnoreCount(c, i, k);
    }
  }

  lemma MemoryHandlersIgnoreCount(c: State, i: Instr, k: nat)
    requires i.Cmp? || i.Ora? || i.Bit? || i.Rol? || i.Dec? || i.Pha? || i.Rti?
    ensures Retire(c.(count := k), i) == Retire(c, i)
  {
  }

  lemma RegisterHandlersIgnoreCount(c: State, i: Instr, k: nat)
    requires i.Tya? || i.Sei? || i.Clv? || i.Sed? || i.Clc? || i.Beq? || i.Bvs?
    ensures Retire(c.(count := k), i) == Retire(c, i)
  {
  }

  lemma SubtractIgnoresCount(c: State, addr: word, len: word, k: nat)
    ensures Subtract.Retire(c.(count := k), addr, len) == Subtract.Retire(c, addr, len)
  {
    var r, s := Subtract.Retire(c.(count := k), addr, len), Subtract.Retire(c, addr, len);
    assert r.a == s.a && r.p == s.p;
  }

  /** The first tick of an instruction (counter at 1) fixes what the bound
      depends on; the later busy ticks leave it alone. */
  lemma PrepareOnlyOnFirstTick(c: State, i: Instr)
    requires c.count != 1
    ensures Prepare(c, i) == c
  {
  }

  /** A later tick of the same instruction, with the counter at `k`:
      below the bound it only moves the counter, at the bound it retires. */
  lemma LaterTick(d: State, i: Instr, k: nat)
    requires k >= 2
    ensures k < Bound(d, i) ==> Tick(d.(count := k), i) == d.(count := k + 1)
    ensures k >= Bound(d, i) ==> Tick(d.(count := k), i) == Retire(d.(count := k), i)
  {
    var t := d.(count := k);
    assert Prepare(t, i) == t;
    assert Bound(t, i) == Bound(d, i);
  }

  /** Busy phase: after `k` ticks from the first, short of the bound,
      the state is the prepared one with only the counter advanced. */
  lemma {:induction false} BusyTicks(c: State, i: Instr, k: nat)
    requires c.count == 1 && 1 <= k < Bound(Prepare(c, i), i)
    ensures Run(c, i, k) == Prepare(c, i).(count := 1 + k)
    decreases k
  {
    var d := Prepare(c, i);
    var previous: nat := k - 1;
    RunOneMore(c, i, previous, k);
    if k > 1 {
      BusyTicks(c, i, previous);
      LaterTick(d, i, k);
    }
  }

  /** Every busy state of the handler, reached after `m` ticks, is the
      first-tick state with only the penalty changed and the counter at
      `k` = `m` + 1. */
  lemma BusyStateFrame(c: State, i: Instr, m: nat, k: nat)
    requires c.count == 1 && k == m + 1 && 2 <= k <= Bound(Prepare(c, i), i)
    ensures Run(c, i, m) == c.(extra := Run(c, i, m).extra, count := k)
  {
    BusyTicks(c, i, m);
  }

  /** One more tick: `Run` for `k` = `m` + 1 ticks is a tick after `m`. */
  lemma RunOneMore(c: State, i: Instr, m: nat, k: nat)
    requires k == m + 1
    ensures Run(c, i, k) == Tick(Run(c, i, m), i)
  {
  }

  /** Iterating the tick from the first one for exactly the handler's
      bound retires the instruction once: the result is the retirement
      function applied to the state as it stood, with the counter back
      at 1. */
  lemma RetiresAtBound(c: State, i: Instr)
    requires c.count == 1 && Bound(Prepare(c, i), i) >= 1
    ensures var n := Bound(Prepare(c, i), i);
      && Run(c, i, n) == Retire(Prepare(c, i), i)
      && Run(c, i, n).count == 1
  {
    var d := Prepare(c, i);
    var n := Bound(d, i);
    assert Run(c, i, n) == Tick(Run(c, i, n - 1), i);
    if n > 1 {
      BusyTicks(c, i, n - 1);
      LaterTick(d, i, n);
      RetireIgnoresCount(d, i, n);
      assert d.(count := n).(count := d.count) == d;
    }
  }
}

=== FILE: flag_ops.dfy ===
/** The single-flag instructions SEI (`VGS/CPU_6502_SEI.go`), CLV
    (`VGS/CPU_6502_CLV.go`), SED (`VGS/CPU_6502_SED.go`) and CLC
    (`VGS/CPU_6507_CLC.go`). Each writes one status bit, advances PC and
    resets only the tick counter. */
module FlagOps {
  import opened Bytes
  import opened Cpu

  /** Writing status bit `flag` with `v` as the last tick of a one-flag
      instruction. */
  function Assign(c: State, flag: FlagIndex, v: bit, len: word): (r: State)
    ensures r.p[flag] == v
    ensures forall i | 0 <= i < 8 && i != flag :: r.p[i] == c.p[i]
    ensures r == c.(p := r.p, pc := Advance(c.pc, len), count := 1)
  {
    c.(p := c.p[flag := v], pc := Advance(c.pc, len), count := 1)
  }

  /** SEI: 1 -> I. */
  function Sei(c: State, len: word): (r: State)
    ensures r.p[Interrupt] == 1
    ensures forall i | 0 <= i < 8 && i != Interrupt :: r.p[i] == c.p[i]
    ensures r == c.(p := r.p, pc := Advance(c.pc, len), count := 1)
  {
    Assign(c, Interrupt, 1, len)
  }

  /** CLV: 0 -> V. */
  function Clv(c: State, len: word): (r: State)
    ensures r.p[Overflow] == 0
    ensures forall i | 0 <= i < 8 && i != Overflow :: r.p[i] == c.p[i]
    ensures r == c.(p := r.p, pc := Advance(c.pc, len), count := 1)
  {
    Assign(c, Overflow, 0, len)
  }

  /** SED: 1 -> D. */
  function Sed(c: State, len: word): (r: State)
    ensures r.p[Decimal] == 1
    ensures forall i | 0 <= i < 8 && i != Decimal :: r.p[i] == c.p[i]
    ensures r == c.(p := r.p, pc := Advance(c.pc, len), count := 1)
  {
    Assign(c, Decimal, 1, len)
  }

  /** CLC: 0 -> C. */
  function Clc(c: State, len: word): (r: State)
    ensures r.p[Carry] == 0
    ensures forall i | 0 <= i < 8 && i != Carry :: r.p[i] == c.p[i]
    ensures r == c.(p := r.p, pc := Advance(c.pc, len), count := 1)
  {
    Assign(c, Carry, 0, len)
  }

  /** Writing the same bit twice is writing it once: the second
      instruction changes nothing but PC. */
  lemma AssignIdempotent(c: State, flag: FlagIndex, v: bit, len: word)
    ensures var once := Assign(c, flag, v, len);
      Assign(once, flag, v, len) == once.(pc := Advance(once.pc, len))
  {
    var once := Assign(c, flag, v, len);
    assert once.p[flag := v] == once.p;
  }

  lemma SeiIdempotent(c: State, len: word)
    ensures Sei(Sei(c, len), len) == Sei(c, len).(pc := Advance(Sei(c, len).pc, len))
  {
    AssignIdempotent(c, Interrupt, 1, len);
  }

  lemma ClvIdempotent(c: State, len: word)
    ensures Clv(Clv(c, len), len) == Clv(c, len).(pc := Advance(Clv(c, len).pc, len))
  {
    AssignIdempotent(c, Overflow, 0, len);
  }

  lemma SedIdempotent(c: State, len: word)
    ensures Sed(Sed(c, len), len) == Sed(c, len).(pc := Advance(Sed(c, len).pc, len))
  {
    AssignIdempotent(c, Decimal, 1, len);
  }

  lemma ClcIdempotent(c: State, len: word)
    ensures Clc(Clc(c, len), len) == Clc(c, len).(pc := Advance(Clc(c, len).pc, len))
  {
    AssignIdempotent(c, Carry, 0, len);
  }
}

=== FILE: lifecycle.dfy ===
/** Start-up of the interpreter: `Initialize` and `Reset`. */
module Lifecycle {
  import opened Bytes
  import opened Cpu

  /** `Initialize`: clears memory, PC and the A/X/Y registers and every
      status bit, then sets the unused bit and, on the 6507 (which has no
      interrupt lines), the break bit. SP, the penalty and the latched
      address are not touched. */
  function Initialize(c: State): (r: State)
    ensures forall i | 0 <= i < 0x1_0000 :: r.mem[i] == 0
    ensures r.pc == 0 && r.a == 0 && r.x == 0 && r.y == 0
    ensures forall i | 0 <= i < 8 && i != Break && i != Unused :: r.p[i] == 0
    ensures r.p[Unused] == 1
    ensures r.p[Break] == 1 <==> c.mode == Mode6507
    ensures r.count == 1
    ensures r.sp == c.sp && r.extra == c.extra && r.bus == c.bus && r.mode == c.mode
  {
    var breakBit := if c.mode == Mode6507 then 1 else 0;
    c.(mem := seq(0x1_0000, _ => 0), pc := 0, a := 0, x := 0, y := 0,
       p := [0, 0, 0, 0, breakBit, 1, 0, 0], count := 1)
  }

  /** `Reset`: PC from the little-endian reset vector at 0xFFFC/0xFFFD
      unless a nonzero override is given, and SP to 0xFF. */
  function Reset(c: State, pcOverride: word): (r: State)
    ensures pcOverride == 0 ==> r.pc % 0x100 == c.mem[0xFFFC] && r.pc / 0x100 == c.mem[0xFFFD]
    ensures pcOverride != 0 ==> r.pc == pcOverride
    ensures r.sp == 0xFF
    ensures r == c.(pc := r.pc, sp := 0xFF)
  {
    var pc := if pcOverride == 0 then 0x100 * c.mem[0xFFFD] + c.mem[0xFFFC] else pcOverride;
    c.(pc := pc, sp := 0xFF)
  }

  /** The reset-vector example: 0x00 at 0xFFFC and 0x80 at 0xFFFD start
      execution at 0x8000 with SP = 0xFF. */
  lemma ResetVectorExample(c: State)
    requires c.mem[0xFFFC] == 0x00 && c.mem[0xFFFD] == 0x80
    ensures Reset(c, 0).pc == 0x8000 && Reset(c, 0).sp == 0xFF
  {
  }

  /** Initializing twice is the same as initializing once. */
  lemma InitializeIdempotent(c: State)
    ensures Initialize(Initialize(c)) == Initialize(c)
  {
  }

  /** Straight after `Initialize` the vector is zero, so without an
      override `Reset` starts at address 0; with the flags of a fresh
      machine the unused bit is set as the self-check requires. */
  lemma InitializeThenReset(c: State, pcOverride: word)
    ensures var r := Reset(Initialize(c), pcOverride);
      && r.pc == pcOverride
      && r.sp == 0xFF
      && r.p[Unused] == 1
      && r.count == 1
  {
  }
}

=== FILE: or_memory.dfy ===
/** ORA, OR memory with the accumulator (`VGS/CPU_6507_ORA.go`). Unlike
    the other handlers this one computes its own page penalty. */
module OrMemory {
  import opened Bytes
  import opened Assumed
  import opened Cpu

  /** The opcode of ORA (indirect),Y, the only form charged a penalty here. */
  const IndirectY: byte := 0x11

  /** The handler's entry check: on the first tick of opcode 0x11, one
      extra cycle when the operand lies on another page than the
      instruction. */
  function Prepare(c: State, addr: word): (r: State)
    ensures c.count == 1 && c.mem[c.pc] == IndirectY && PageCrossed(addr, c.pc) ==> r.extra == 1
    ensures !(c.count == 1 && c.mem[c.pc] == IndirectY && PageCrossed(addr, c.pc)) ==> r.extra == c.extra
    ensures r == c.(extra := r.extra)
  {
    if c.count == 1 && c.mem[c.pc] == IndirectY && PageCrossed(addr, c.pc) then c.(extra := 1) else c
  }

  /** The retirement of ORA with operand `Memory[addr]`. */
  function Retire(c: State, addr: word, len: word): (r: State)
    ensures forall i: nat :: BitOf(r.a, i) == 1 <==> BitOf(c.a, i) == 1 || BitOf(c.mem[addr], i) == 1
    ensures r.p[Zero] == 1 <==> c.a == 0 && c.mem[addr] == 0
    ensures r.p[Negative] == 1 <==> Bit7(c.a) == 1 || Bit7(c.mem[addr]) == 1
    ensures forall i | 0 <= i < 8 && i != Zero && i != Negative :: r.p[i] == c.p[i]
    ensures r == c.(a := r.a, p := r.p, pc := Advance(c.pc, len), count := 1, extra := 0)
  {
    var a := OrByte(c.a, c.mem[addr]);
    ResetCounters(c.(a := a, p := SetZN(c.p, a), pc := Advance(c.pc, len)))
  }

  /** A second ORA with the same operand leaves the accumulator as the
      first one left it. */
  lemma Idempotent(c: State, addr: word, len: word)
    ensures var once := Retire(c, addr, len);
      Retire(once, addr, len).a == once.a
  {
    OrIdempotent(c.a, c.mem[addr]);
  }
}

=== FILE: push.dfy ===
/** PHA, push the accumulator (`CORE/CPU_6502_PHA.go`). */
module Push {
  import opened Bytes
  import opened Cpu

  /** The retirement of PHA: A is stored at the stack slot SP names (page
      1 on the 6502, page 0 on the 6507) and SP moves down one, wrapping. */
  function Retire(c: State, len: word): (r: State)
    ensures r.mem[StackAddress(c.mode, c.sp)] == c.a
    ensures forall i | 0 <= i < 0x1_0000 && i != StackAddress(c.mode, c.sp) :: r.mem[i] == c.mem[i]
    ensures Wrap8(r.sp + 1) == c.sp
    ensures c.mode == Mode6502 ==> 0x100 <= StackAddress(c.mode, c.sp) <= 0x1FF
    ensures r == c.(mem := r.mem, sp := r.sp, pc := Advance(c.pc, len), count := 1, extra := 0)
  {
    ResetCounters(c.(mem := c.mem[StackAddress(c.mode, c.sp) := c.a], sp := Wrap8(c.sp - 1),
                     pc := Advance(c.pc, len)))
  }

  /** The slot just written is the one a pull would read next: the stack
      address of `SP + 1` after the push. */
  lemma PullSeesPushed(c: State, len: word)
    ensures var r := Retire(c, len);
      r.mem[StackAddress(r.mode, Wrap8(r.sp + 1))] == c.a
  {
  }
}

=== FILE: return_from_interrupt.dfy ===
/** RTI, return from interrupt (`VGS/CPU_6502_RTI.go`): pull the status
    byte, then the program counter, low byte first. */
module ReturnFromInterrupt {
  import opened Bytes
  import opened Cpu
  import Push

  /** Where the status byte is read: the stack slot of `SP + 1`, the
      addition wrapping in the 8-bit SP. */
  function StatusAddress(mode: Mode, sp: byte): (addr: word)
    ensures addr % 0x100 == Wrap8(sp as int + 1)
    ensures mode == Mode6502 ==> addr == 0x100 + Wrap8(sp as int + 1)
    ensures mode == Mode6507 ==> addr == Wrap8(sp as int + 1)
  {
    StackAddress(mode, Wrap8(sp as int + 1))
  }

  /** The flags pulled from status byte `b`: every bit of `b` except bits 4
      (break) and 5 (unused), which keep their current values. */
  function PullFlags(p: Flags, b: byte): (r: Flags)
    ensures forall i | 0 <= i < 8 && i != Break && i != Unused :: r[i] == BitOf(b, i)
    ensures r[Break] == p[Break] && r[Unused] == p[Unused]
  {
    seq(8, i requires 0 <= i < 8 => if i == Break || i == Unused then p[i] else BitOf(b, i))
  }

  /** The retirement of RTI. PC is read from the two bytes above the
      status byte, without wrapping inside the stack page; PC is not
      advanced past the instruction, and only the tick counter is reset. */
  function Retire(c: State): (r: State)
    ensures var s := StatusAddress(c.mode, c.sp);
      && r.pc == 0x100 * (c.mem[s + 2] as int) + c.mem[s + 1]
      && (forall i | 0 <= i < 8 && i != Break && i != Unused :: r.p[i] == BitOf(c.mem[s], i))
    ensures r.p[Break] == c.p[Break] && r.p[Unused] == c.p[Unused]
    ensures r.sp == Wrap8(c.sp as int + 3)
    ensures r == c.(pc := r.pc, p := r.p, sp := r.sp, count := 1)
  {
    var s := StatusAddress(c.mode, c.sp);
    c.(p := PullFlags(c.p, c.mem[s]), pc := 0x100 * (c.mem[s + 2] as int) + c.mem[s + 1],
       sp := Wrap8(c.sp as int + 3), count := 1)
  }

  /** Three pushes (PC high, PC low, status) followed by RTI return to the
      pushed PC with the pushed flags (bits 4 and 5 aside) and SP back where
      it started, provided the three slots do not wrap around the stack
      page. */
  lemma PushedFrameRoundTrip(c: State, high: byte, low: byte, status: byte)
    requires c.sp >= 2
    ensures var c1 := Push.Retire(c.(a := high), 1);
      var c2 := Push.Retire(c1.(a := low), 1);
      var c3 := Push.Retire(c2.(a := status), 1);
      var r := Retire(c3);
      && r.pc == 0x100 * (high as int) + low
      && r.sp == c.sp
      && (forall i | 0 <= i < 8 && i != Break && i != Unused :: r.p[i] == BitOf(status, i))
      && r.p[Break] == c.p[Break] && r.p[Unused] == c.p[Unused]
  {
    var c3 := Push.Retire(Push.Retire(Push.Retire(c.(a := high), 1).(a := low), 1).(a := status), 1);
    ThreePushes(c, high, low, status);
    StatusAfterThreePushes(c.mode, c.sp, c3.sp);
  }

  /** The stack after the three pushes of an interrupt frame. */
  lemma ThreePushes(c: State, high: byte, low: byte, status: byte)
    requires c.sp >= 2
    ensures var c3 := Push.Retire(Push.Retire(Push.Retire(c.(a := high), 1).(a := low), 1).(a := status), 1);
      && c3.mode == c.mode && c3.p == c.p
      && Wrap8(c3.sp as int + 3) == c.sp
      && c3.mem[StackAddress(c.mode, c.sp)] == high
      && c3.mem[StackAddress(c.mode, c.sp - 1)] == low
      && c3.mem[StackAddress(c.mode, c.sp - 2)] == status
  {
    var c1 := Push.Retire(c.(a := high), 1);
    var c2 := Push.Retire(c1.(a := low), 1);
    var top, mid, bottom := StackAddress(c.mode, c.sp), StackAddress(c.mode, c.sp - 1), StackAddress(c.mode, c.sp - 2);
    OnePush(c, high);
    OnePush(c1, low);
    OnePush(c2, status);
    assert top != mid && mid != bottom && top != bottom;
    assert c.sp >= 3 ==> c2.sp - 1 == c.sp - 3;
  }

  /** One push: the slot of `sp` receives the value and SP moves down by
      one, wrapping in the 8-bit register. */
  lemma OnePush(c: State, v: byte)
    ensures var r := Push.Retire(c.(a := v), 1);
      && r.sp == Wrap8(c.sp as int - 1)
      && (c.sp >= 1 ==> r.sp == c.sp - 1)
      && r.mem == c.mem[StackAddress(c.mode, c.sp) := v]
      && r.mode == c.mode && r.p == c.p
  {
  }

  /** After three pushes from `sp` the status slot is the last one written
      and the two above it are the other two, on either processor. */
  lemma StatusAfterThreePushes(mode: Mode, sp: byte, after: byte)
    requires sp >= 2 && Wrap8(after as int + 3) == sp
    ensures var s := StatusAddress(mode, after);
      && s == StackAddress(mode, sp - 2)
      && s + 1 == StackAddress(mode, sp - 1)
      && s + 2 == StackAddress(mode, sp)
  {
    assert after == sp - 3 || (sp == 2 && after == 0xFF);
  }

  /** With SP = 0xFE on the 6502 the status byte is the last byte of page
      1, and PC is read from 0x0200/0x0201, outside the stack page. */
  lemma ReadsPastStackPage(c: State)
    requires c.mode == Mode6502 && c.sp == 0xFE
    ensures Retire(c).pc == 0x100 * (c.mem[0x201] as int) + c.mem[0x200]
    ensures Retire(c).sp == 0x01
  {
  }
}

=== FILE: rotate_left.dfy ===
/** ROL on a memory operand (`VGS/CPU_6507_ROL.go`): the nine bits
    `C <- [76543210] <- C` rotate one place to the left. */
module RotateLeft {
  import opened Bytes
  import opened Cpu

  /** The shifted byte with the old carry in bit 0; bit 7 falls out. */
  function ShiftIn(m: byte, carry: bit): (rotated: byte)
    ensures 0x100 * (Bit7(m) as int) + rotated == 2 * (m as int) + carry
    ensures rotated % 2 == carry
  {
    var shifted := Wrap8(2 * (m as int));
    assert shifted == 2 * (m as int) - 0x100 * (Bit7(m) as int);
    shifted + carry
  }

  /** The retirement of ROL on `Memory[addr]`. Only the tick counter is
      reset; a pending penalty is left as it was. */
  function Retire(c: State, addr: word, len: word): (r: State)
    ensures r.p[Carry] == Bit7(c.mem[addr])
    ensures 0x100 * (r.p[Carry] as int) + r.mem[addr] == 2 * (c.mem[addr] as int) + c.p[Carry]
    ensures r.mem[addr] % 2 == c.p[Carry]
    ensures r.p[Zero] == 1 <==> r.mem[addr] == 0
    ensures r.p[Negative] == Bit7(r.mem[addr])
    ensures forall i | 0 <= i < 8 && i != Carry && i != Zero && i != Negative :: r.p[i] == c.p[i]
    ensures r == c.(mem := c.mem[addr := r.mem[addr]], p := r.p, pc := Advance(c.pc, len), count := 1)
  {
    var m := c.mem[addr];
    var rotated := ShiftIn(m, c.p[Carry]);
    c.(mem := c.mem[addr := rotated], p := SetZN(c.p[Carry := Bit7(m)], rotated),
       pc := Advance(c.pc, len), count := 1)
  }

  /** `n` successive ROLs of the same cell. */
  function Repeat(c: State, addr: word, len: word, n: nat): State
    decreases n
  {
    if n == 0 then c else Retire(Repeat(c, addr, len, n - 1), addr, len)
  }

  /** The nine-bit value `C:M` that ROL rotates. */
  function Ninebit(c: State, addr: word): nat {
    0x100 * (c.p[Carry] as int) + c.mem[addr]
  }

  /** Rotating a nine-bit value left by one is doubling it modulo 511
      (2^9 - 1), except for the all-ones value, which stays put. */
  function Rotate9(v: nat): nat {
    if v == 511 then 511 else (2 * v) % 511
  }

  lemma {:induction false} StepRotates(c: State, addr: word, len: word)
    ensures Ninebit(Retire(c, addr, len), addr) == Rotate9(Ninebit(c, addr))
  {
    var r := Retire(c, addr, len);
    var v := Ninebit(c, addr);
    assert Ninebit(r, addr) == 2 * (c.mem[addr] as int) + c.p[Carry] as int;
    if v != 511 {
      assert 2 * (c.mem[addr] as int) + c.p[Carry] < 511;
      assert 2 * v == 511 * (c.p[Carry] as int) + (2 * (c.mem[addr] as int) + c.p[Carry]);
    }
  }

  lemma DoubleMod(x: nat)
    ensures (2 * (x % 511)) % 511 == (2 * x) % 511
  {
    var q, s := x / 511, x % 511;
    assert 2 * x == 511 * (2 * q) + 2 * s;
  }

  lemma Doubling(n: nat, v: nat)
    requires n > 0
    ensures Pow2(n) * v == 2 * (Pow2(n - 1) * v)
  {
    assert Pow2(n) == 2 * Pow2(n - 1);
  }

  lemma NineFold(v: nat)
    requires v < 511
    ensures (Pow2(9) * v) % 511 == v
  {
    assert Pow2(9) == 512;
    assert 512 * v == 511 * v + v;
  }

  /** `n` nine-bit rotations of `v`. */
  function Rotations(v: nat, n: nat): nat
    decreases n
  {
    if n == 0 then v else Rotate9(Rotations(v, n - 1))
  }

  /** Below the all-ones value, `n` rotations multiply by 2^n modulo 511. */
  lemma {:induction false} RotationsDouble(v: nat, n: nat)
    requires v < 511
    ensures Rotations(v, n) == (Pow2(n) * v) % 511
    decreases n
  {
    if n == 0 {
      assert v % 511 == v;
    } else {
      RotationsDouble(v, n - 1);
      var w := Pow2(n - 1) * v;
      assert Rotations(v, n - 1) == w % 511;
      assert w % 511 != 511;
      DoubleMod(w);
      Doubling(n, v);
    }
  }

  lemma {:induction false} RotationsFixAllOnes(n: nat)
    ensures Rotations(511, n) == 511
    decreases n
  {
    if n > 0 {
      RotationsFixAllOnes(n - 1);
    }
  }

  /** Nine rotations bring every nine-bit value back. */
  lemma NineRotationsOfValue(v: nat)
    requires v <= 511
    ensures Rotations(v, 9) == v
  {
    if v == 511 {
      RotationsFixAllOnes(9);
    } else {
      RotationsDouble(v, 9);
      NineFold(v);
    }
  }

  /** ROL repeated on a cell rotates its nine-bit value as often. */
  lemma {:induction false} RepeatRotates(c: State, addr: word, len: word, n: nat)
    ensures Ninebit(Repeat(c, addr, len, n), addr) == Rotations(Ninebit(c, addr), n)
    decreases n
  {
    if n > 0 {
      RepeatRotates(c, addr, len, n - 1);
      StepRotates(Repeat(c, addr, len, n - 1), addr, len);
    }
  }

  /** Nine successive ROLs of one cell restore both the cell and the carry:
      the rotation runs through nine bits. */
  lemma NineRotationsRestore(c: State, addr: word, len: word)
    ensures Repeat(c, addr, len, 9).mem[addr] == c.mem[addr]
    ensures Repeat(c, addr, len, 9).p[Carry] == c.p[Carry]
  {
    RepeatRotates(c, addr, len, 9);
    NineRotationsOfValue(Ninebit(c, addr));
    NinebitDetermines(Repeat(c, addr, len, 9), c, addr);
  }

  /** The nine-bit value determines both the cell and the carry. */
  lemma NinebitDetermines(c: State, d: State, addr: word)
    requires Ninebit(c, addr) == Ninebit(d, addr)
    ensures c.mem[addr] == d.mem[addr] && c.p[Carry] == d.p[Carry]
  {
  }
}

=== FILE: subtract.dfy ===
/** SBC, subtract memory from the accumulator with borrow
    (`CORE/CPU_6502_SBC.go`). The borrow is the inverted carry. */
module Subtract {
  import opened Bytes
  import opened Assumed
  import opened Cpu
  import Bcd

  /** Binary mode: A + (255 - M) + C, the ADC of the one's complement. */
  function BinaryResult(a: byte, m: byte, carry: bit): (r: byte)
    ensures r == Wrap8(a - m - (1 - carry))
  {
    Wrap8(a + (0xFF - m) + carry)
  }

  /** Binary mode flags: V and C from the complemented operand, Z and N
      from the result. */
  function BinaryFlags(p: Flags, a: byte, m: byte, result: byte): (r: Flags)
    ensures r[Carry] == 1 <==> a - m - (1 - p[Carry]) >= 0
    ensures r[Overflow] == 1 <==> !(-128 <= TwosComplement(a) - TwosComplement(m) - (1 - p[Carry]) <= 127)
    ensures r[Zero] == 1 <==> result == 0
    ensures r[Negative] == 1 <==> result >= 0x80
    ensures r[Interrupt] == p[Interrupt] && r[Decimal] == p[Decimal]
    ensures r[Break] == p[Break] && r[Unused] == p[Unused]
  {
    var complement := 0xFF - m;
    var carry := p[Carry];
    OverflowIsSignedRangeExit(a, complement, carry);
    SetZN(p[Overflow := OverflowFlag(a, complement, carry)][Carry := CarryFlag(a, complement, carry)], result)
  }

  /** Decimal mode: both bytes read as decimal through the hex printout
      and subtracted with borrow. */
  function DecimalDifference(a: byte, m: byte, carry: bit): (difference: int)
    ensures -100 <= difference <= 99
  {
    Bcd.ParsedDigits(a) - Bcd.ParsedDigits(m) - (1 - carry)
  }

  /** The difference wrapped into 0..99 by adding 100 and re-encoded as
      BCD. */
  function DecimalResult(difference: int): (result: byte)
    requires -100 <= difference <= 99
    ensures Bcd.IsBcd(result) && Bcd.Value(result) == difference % 100
  {
    Bcd.Encode(if difference < 0 then difference + 100 else difference)
  }

  /** Decimal mode flags: C and N from the sign of the unwrapped
      difference, Z from the result, V from the raw operand. */
  function DecimalFlags(p: Flags, a: byte, m: byte, difference: int, result: byte): (r: Flags)
    ensures r[Carry] == 1 <==> difference >= 0
    ensures r[Negative] == 1 <==> difference < 0
    ensures r[Zero] == 1 <==> result == 0
    ensures r[Overflow] == 1 <==> !(-128 <= TwosComplement(a) + TwosComplement(m) + p[Carry] <= 127)
    ensures r[Interrupt] == p[Interrupt] && r[Decimal] == p[Decimal]
    ensures r[Break] == p[Break] && r[Unused] == p[Unused]
  {
    OverflowIsSignedRangeExit(a, m, p[Carry]);
    var carryOut: bit := if difference >= 0 then 1 else 0;
    p[Overflow := OverflowFlag(a, m, p[Carry])][Carry := carryOut]
     [Zero := if result == 0 then 1 else 0][Negative := 1 - carryOut]
  }

  /** The retirement of SBC with operand `Memory[addr]` and length `len`. */
  function Retire(c: State, addr: word, len: word): (r: State)
    ensures var m, carry := c.mem[addr], c.p[Carry];
      var difference := c.a - m - (1 - carry);
      c.p[Decimal] == 0 ==>
        && r.a == Wrap8(difference)
        && (r.p[Carry] == 1 <==> difference >= 0)
        && (r.p[Overflow] == 1 <==> !(-128 <= TwosComplement(c.a) - TwosComplement(m) - (1 - carry) <= 127))
        && (r.p[Zero] == 1 <==> r.a == 0)
        && (r.p[Negative] == 1 <==> r.a >= 0x80)
    ensures var m, carry := c.mem[addr], c.p[Carry];
      var difference := DecimalDifference(c.a, m, carry);
      c.p[Decimal] == 1 ==>
        && Bcd.IsBcd(r.a)
        && Bcd.Value(r.a) == difference % 100
        && (r.p[Carry] == 1 <==> difference >= 0)
        && (r.p[Negative] == 1 <==> difference < 0)
        && (r.p[Zero] == 1 <==> difference % 100 == 0)
        && (r.p[Overflow] == 1 <==> !(-128 <= TwosComplement(c.a) + TwosComplement(m) + carry <= 127))
    ensures r.p[Interrupt] == c.p[Interrupt] && r.p[Decimal] == c.p[Decimal]
    ensures r.p[Break] == c.p[Break] && r.p[Unused] == c.p[Unused]
    ensures r == c.(a := r.a, p := r.p, pc := Advance(c.pc, len), count := 1, extra := 0)
  {
    var m, carry := c.mem[addr], c.p[Carry];
    if c.p[Decimal] == 0 then
      var a := BinaryResult(c.a, m, carry);
      ResetCounters(c.(a := a, p := BinaryFlags(c.p, c.a, m, a), pc := Advance(c.pc, len)))
    else
      var difference := DecimalDifference(c.a, m, carry);
      var a := DecimalResult(difference);
      ResetCounters(c.(a := a, p := DecimalFlags(c.p, c.a, m, difference, a), pc := Advance(c.pc, len)))
  }

  /** On valid BCD operands the decimal path is ordinary decimal
      subtraction with borrow: the digits of the result are those of
      dec(A) - dec(M) - borrow, plus 100 when that is negative. */
  lemma DecimalOnValidOperands(c: State, addr: word, len: word)
    requires c.p[Decimal] == 1 && Bcd.IsBcd(c.a) && Bcd.IsBcd(c.mem[addr])
    ensures var difference := Bcd.Value(c.a) - Bcd.Value(c.mem[addr]) - (1 - c.p[Carry]);
      var r := Retire(c, addr, len);
      && -100 <= difference <= 99
      && r.a == Bcd.Encode(if difference < 0 then difference + 100 else difference)
      && (r.p[Carry] == 1 <==> difference >= 0)
  {
    var difference := Bcd.Value(c.a) - Bcd.Value(c.mem[addr]) - (1 - c.p[Carry]);
    var r := Retire(c, addr, len);
    var wrapped := if difference < 0 then difference + 100 else difference;
    assert Bcd.Value(r.a) == wrapped;
    Bcd.EncodeValue(r.a);
  }
}

=== FILE: transfer.dfy ===
/** TYA, transfer index Y to the accumulator (`VGS/CPU_6507_TYA.go`). */
module Transfer {
  import opened Bytes
  import opened Cpu

  /** The retirement of TYA: A takes Y, Z and N follow it, and only the
      tick counter is reset. */
  function Retire(c: State, len: word): (r: State)
    ensures r.a == c.y
    ensures r.p[Zero] == 1 <==> c.y == 0
    ensures r.p[Negative] == Bit7(c.y)
    ensures forall i | 0 <= i < 8 && i != Zero && i != Negative :: r.p[i] == c.p[i]
    ensures r == c.(a := r.a, p := r.p, pc := Advance(c.pc, len), count := 1)
  {
    c.(a := c.y, p := SetZN(c.p, c.y), pc := Advance(c.pc, len), count := 1)
  }

  /** A second TYA finds A already equal to Y and changes nothing but PC. */
  lemma Idempotent(c: State, len: word)
    ensures var once := Retire(c, len);
      Retire(once, len) == once.(pc := Advance(once.pc, len))
  {
    var once := Retire(c, len);
    var twice := Retire(once, len);
    assert twice.p == once.p;
  }
}
